=== FILE: README.md ===
# ConvexHull — a verified model

This project models the `ConvexHull` class of an object-tracking
pipeline. The class works on 2D feature points (`SmartPoint`, of which
only the coordinate matters here). It can:

- build a convex hull with Andrew's monotone chain (`grahamScan`);
- decide whether a point lies inside a hull by ray crossing (`contains`);
- pick out the points of a set that lie inside a hull (`pointInsidePolygon`, in two forms);
- measure a hull: area, perimeter and vertex mean (`polygonArea`, `perimeterArea`, `calculatePolygonBaricenter`);
- compare two hulls observed in different frames (`compareHulls`).

The comparison works on a fixed-size shape descriptor: seven distances
anchored at one vertex. It searches over all starting vertices of the
second hull for the best alignment, then walks both hulls in step. It
reports a similarity, a scale and the vertices of the second hull that
deviate too much.

The model is split into modules that follow the class's parts:

| file | module | models |
|---|---|---|
| geometry.dfy | `Geometry` | points, the cross product, the sort key, absolute value |
| hull_builder.dfy | `HullBuilder` | `grahamScan` (both overloads) |
| containment.dfy | `Containment` | `contains` and both `pointInsidePolygon` forms |
| metrics.dfy | `Metrics` | `polygonArea`, `perimeterArea`, `calculatePolygonBaricenter` |
| descriptor.dfy | `Descriptor` | the descriptor: `findTriangleStripRatio`, its inverse form, `invertTriangleStripRatio`, `compareRatioArrays`, and the constants of `ConvexHull.h` |
| comparator.dfy | `Comparator` | `compareHulls` |

## How the model is built

- **Algorithms with loops.** Each is a `method` with the loop kept. It is proved equal to a specification function (`GrahamScan` == `ConvexHullOf`, `Contains` == `ContainsSpec`, `PolygonArea` == `Area`, and so on). The properties the class promises are then proved about those functions as lemmas.
- **Descriptor buffers.** The `std::array<float, 7>` buffers stay `array<real>`, updated in place. `CompareRatioArrays` overwrites its second argument with the products, as the source does, and `WalkAligned` reads slot 1 of that overwritten buffer.
- **Coordinates** are `real`.
- **The distance function** (`Point::distance`, declared in `Points.h`) is a parameter `dist` that returns non-negative reals. `Points.h` is not part of this model.

## Where the code departs from the intended behaviour

The model follows the code in each of these cases:

- **Closing point.** `grahamScan` returns the hull with its first point repeated at the end: the upper pass pushes `stack[0]` last. `SquareHull` shows five points for a square, and `ConvexHullClosed` proves that this happens for every input of three or more points. The intended hull has no duplicated start/end point.
- **Collinear input.** Collinear input does not give an empty hull. `CollinearHull` shows that (0,0),(1,0),(2,0) gives [(0,0),(2,0),(0,0)].
- **Mean seed.** `calculatePolygonBaricenter` starts its running sum at (−1,−1), not at 0. The result is the mean shifted by −1/n (`CalculatePolygonBaricenter`), so the 4×4 square gives (1.75, 1.75) rather than (2, 2) (`SquareBaricenter`).
- **Scale.** `compareHulls` returns `1 + best_scale`. Comparing a hull with itself, or with a copy listed from another vertex, therefore gives scale 2, not 1, whenever the kept start matches exactly (`CompareHullsSelf`, `CompareHullsRotatedScale`, and `CompareClosedHullSelf` for a closed hull of at least four points (`ClosedNonDegenerate`: no vertex on the centre, and no zero-length edge other than the closing one)). When no start matches exactly the scale differs too: for the collinear hull below it is 40/21 (`FlatHullSelf`).
- **Self-comparison of a built hull.** Because of the closing point, a hull from `grahamScan` has a cyclic edge of length 0, from its last vertex back to its first, whenever the distance of a point to itself is 0. The three descriptors that reach that edge keep a zero slot, which `invertTriangleStripRatio` leaves in place, so each compares to 6/7 against itself instead of 1. If such a hull also has at least four points, no vertex on the centre, and no zero-length edge other than the closing one (`ClosedNonDegenerate`), then compared with itself it gives similarity 1 − 3/(7n), not 1, scale 2, and reports vertices n−3 and n−2 as outliers (`CompareClosedHullSelf`). For the 4×4 square that is 32/35 with outliers (4,4) and (0,4) (`SquareHullSelf`). Hulls outside that hypothesis behave differently. The collinear hull [(0,0),(2,0),(0,0)] has three points, and every one of its descriptors has a zero slot. Under the Manhattan distance start 0 compares to 6/7, start 1 to 25/21 and start 2 to 19/21, so the first loop keeps start 2. The self-comparison is then similarity 53/63, scale 40/21, with outliers (0,0) and (2,0) (`FlatHullSelf`). `CompareHullsSelf` (similarity 1, no outliers) holds only for an open vertex list with no zero-length cyclic edge, and `GrahamScanHullDegenerate` proves that no `grahamScan` hull is one.
- **Missing best index.** The branch that answers {0, 0, empty} when no best index was found (ConvexHull.cpp:251-254) is unreachable in the model, because the `FLT_MAX` seed is modelled as "nothing kept yet" and start 0 is always kept (`BestIndex`). The C++ code takes it when no deviation is below `FLT_MAX`, for instance when every deviation is infinite or NaN; those values are not modelled.
- **Boundary hits.** `contains` stops at the first edge whose crossing lies exactly at the query point, and then answers with the parity so far. A vertex hit is noticed only if no such edge comes first (`ContainsFirstStop`).

## Model

| member | source | states |
|---|---|---|
| Geometry.Cross | ConvexHull.cpp:261-264 | definition: twice the signed area of the triangle o, a, b, positive for a counter-clockwise turn |
| Geometry.CrossDegenerate | ConvexHull.cpp:261-264 | the cross product is 0 when two of its three points coincide |
| Geometry.Abs | ConvexHull.cpp:90 | the result is non-negative and equals the argument or its negation |
| Geometry.LexLeqTotalOrder | ConvexHull.cpp:16 | the (x, then y) order of the sort comparator is reflexive, total, antisymmetric and transitive |
| HullBuilder.Insert | ConvexHull.cpp:16 | definition: one insertion step of the sort, before the first point not smaller in (x, y) order; the result is one point longer |
| HullBuilder.InsertPermutes | ConvexHull.cpp:16 | inserting a point into a sorted list adds exactly that point (multiset) |
| HullBuilder.InsertLowerBound | ConvexHull.cpp:16 | a lower bound of the point and the list bounds the result |
| HullBuilder.InsertSorted | ConvexHull.cpp:16 | insertion keeps a list sorted by (x, then y) |
| HullBuilder.SortLex | ConvexHull.cpp:16 | definition: the sort of the input by x, then y (an insertion sort standing for `std::sort`); the length is kept |
| HullBuilder.SortLexPermutes | ConvexHull.cpp:16 | sorting is a permutation of the input |
| HullBuilder.SortLexSorted | ConvexHull.cpp:16 | sorting yields a list sorted by (x, then y) |
| HullBuilder.SortLexFirstIsSmallest | ConvexHull.cpp:16 | the first sorted point is an input point no greater than any input point |
| HullBuilder.SortLexCons | ConvexHull.cpp:16 | supporting lemma: sorting a list with a first point is inserting that point into the sorted rest |
| HullBuilder.PopWhile | ConvexHull.cpp:20-21 | popping keeps a prefix, never drops below floor−1 points, and stops at a strict left turn towards the new point |
| HullBuilder.PopStep | ConvexHull.cpp:20-21 | supporting lemma: a non-left turn pops the last point and the popping goes on |
| HullBuilder.PopDone | ConvexHull.cpp:20-21 | supporting lemma: once the loop condition fails nothing more is popped |
| HullBuilder.LowerPass | ConvexHull.cpp:18-23 | the lower chain over the first i points has at most i points |
| HullBuilder.LowerStep | ConvexHull.cpp:18-23 | supporting lemma: one step of the lower pass pops, then pushes stack[i] |
| HullBuilder.LowerPassShape | ConvexHull.cpp:18-23 | the lower chain starts at the first sorted point, has at least two points once two are read, turns strictly left everywhere and uses only input points |
| HullBuilder.LeftTurnsWeaken | ConvexHull.cpp:20 | strict left turns from index lo imply them from any later index |
| HullBuilder.PushKeepsLeftTurns | ConvexHull.cpp:20-22 | popping, then pushing, keeps every turn above the floor strictly left |
| HullBuilder.UpperFrom | ConvexHull.cpp:25-30 | definition: the upper pass from loop index i down to 1, popping against the floor t before pushing stack[i−1] |
| HullBuilder.UpperStep | ConvexHull.cpp:25-30 | supporting lemma: one step of the upper pass pops against the floor t, then pushes stack[i−1] |
| HullBuilder.UpperDone | ConvexHull.cpp:25 | supporting lemma: the upper pass ends when i reaches 0 |
| HullBuilder.UpperFromShape | ConvexHull.cpp:25-30 | the upper pass never touches the first t−1 points, ends at the first sorted point, keeps left turns above the floor and adds only input points |
| HullBuilder.UpperFromGrows | ConvexHull.cpp:25-30 | once a step is taken the upper pass holds at least t points, since popping stops at t−1 and a push follows |
| HullBuilder.LowerChain | ConvexHull.cpp:18-23 | the lower chain of the whole sorted input is no longer than the input |
| HullBuilder.ConvexHullOf | ConvexHull.cpp:13-14 | fewer than three points give the empty hull |
| HullBuilder.ConvexHullClosed | ConvexHull.cpp:8-32 | for three or more points the hull has between 3 and 2n−1 points, and starts and ends at the smallest point |
| HullBuilder.ConvexHullEnds | ConvexHull.cpp:8-32 | the hull has at least three points, is closed, starts at the input point smallest in (x, y) order, and contains only input points |
| HullBuilder.ConvexHullTurns | ConvexHull.cpp:18-30 | the hull is the lower chain followed by the upper pass; every turn of the lower chain, and every turn from the last lower point on, is strictly left |
| HullBuilder.GrahamScan | ConvexHull.cpp:8-32 | the method returns ConvexHullOf(stack): empty below three points, otherwise closed with between 3 and 2n−1 points |
| HullBuilder.BuildLower | ConvexHull.cpp:18-23 | the first loop computes the lower chain |
| HullBuilder.BuildUpper | ConvexHull.cpp:25-30 | the second loop computes the upper pass with floor size+1 |
| HullBuilder.GrahamScanMatches | ConvexHull.cpp:34-43 | a non-empty collection of correspondences gives the hull of the points they convert to |
| HullBuilder.SquareHull | ConvexHull.cpp:8-32 | the 4×4 square gives its corners counter-clockwise from (0,0), with (0,0) repeated at the end |
| HullBuilder.SquareSorted | ConvexHull.cpp:16 | the square's corners sort to (0,0),(0,4),(4,0),(4,4) |
| HullBuilder.SquareSortedTail | ConvexHull.cpp:16 | the last three corners sort to (0,4),(4,0),(4,4) |
| HullBuilder.SquareLowerChain | ConvexHull.cpp:18-23 | the square's lower chain is (0,0),(4,0),(4,4) |
| HullBuilder.SquareUpperStep3 | ConvexHull.cpp:25-30 | the first upper step pushes (4,0) |
| HullBuilder.SquareUpperStep2 | ConvexHull.cpp:25-30 | the second pops (4,0) and pushes (0,4) |
| HullBuilder.SquareUpperStep1 | ConvexHull.cpp:25-30 | the last pushes (0,0), closing the hull |
| HullBuilder.CollinearHull | ConvexHull.cpp:8-32 | three collinear points give [(0,0),(2,0),(0,0)], not an empty hull |
| HullBuilder.CollinearSorted | ConvexHull.cpp:16 | the collinear points are already sorted |
| HullBuilder.CollinearLowerChain | ConvexHull.cpp:18-23 | the middle collinear point is popped from the lower chain |
| HullBuilder.CollinearUpper | ConvexHull.cpp:25-30 | the upper pass pushes back to (0,0) and pops the middle point again |
| Containment.CrossX | ConvexHull.h:162 | definition: the x at which the line through an edge meets the query point's height |
| Containment.ScaledBetween | ConvexHull.h:162 | supporting lemma: a fraction t in [0, 1] of d lies between 0 and d |
| Containment.CrossXOnEdge | ConvexHull.h:160-162 | for a straddling edge the interpolated x lies on the edge's line, between its endpoints' x |
| Containment.Prev | ConvexHull.h:147 | the edge partner index j (size−1 first, then i−1) is a valid index |
| Containment.Straddles | ConvexHull.h:160 | definition: one end of the edge lies strictly below the query height and the other at or above it |
| Containment.VertexHit | ConvexHull.h:154 | definition: either end of edge i (vertex i or its predecessor) equals the query point |
| Containment.EdgeStraddles | ConvexHull.h:160 | definition: edge i straddles the query height |
| Containment.EdgeCrossX | ConvexHull.h:162 | definition: the x at which a straddling edge i meets the query height |
| Containment.Stops | ConvexHull.h:154-167 | definition: edge i ends the loop, by a vertex hit or by a crossing exactly at the query x |
| Containment.Toggles | ConvexHull.h:169-170 | definition: edge i straddles the query height and crosses strictly to the right of the point |
| Containment.CountToggles | ConvexHull.h:147-171 | definition: the number of toggling edges among edges lo .. hi − 1 |
| Containment.ScanFrom | ConvexHull.h:147-172 | definition: the loop of `contains` resumed at edge i: false on a vertex hit, the parity so far at a crossing exactly on the point, otherwise a flip for each crossing to its right |
| Containment.ContainsSpec | ConvexHull.h:138-175 | definition: false below three vertices, otherwise the scan from edge 0 with parity false |
| Containment.ScanRun | ConvexHull.h:147-172 | over edges that do not stop the scan, the result flips once per toggling edge |
| Containment.ContainsIsParity | ConvexHull.h:147-174 | when no edge stops the scan, inside means an odd number of crossings to the right of the point |
| Containment.ContainsFirstStop | ConvexHull.h:154-167 | at the first stopping edge the answer is false for a vertex hit, otherwise the parity so far |
| Containment.ContainsDegenerate | ConvexHull.h:144-158 | fewer than three vertices, or a point equal to the first or the last vertex, is outside |
| Containment.HorizontalEdgeIgnored | ConvexHull.h:160 | a horizontal edge neither stops nor toggles the scan |
| Containment.Contains | ConvexHull.h:138-175 | the loop computes ContainsSpec, and a hull of fewer than three vertices contains nothing |
| Containment.InsideIndices | ConvexHull.cpp:49-57 | no more indices are returned than points were scanned |
| Containment.InsideIndicesSound | ConvexHull.cpp:49-57 | every returned index is in range and names a point inside the hull |
| Containment.InsideIndicesIncreasing | ConvexHull.cpp:49-57 | indices come in the order of the points, without repetition |
| Containment.InsideIndicesComplete | ConvexHull.cpp:49-57 | every point inside the hull has its index returned |
| Containment.PointInsidePolygonRefs | ConvexHull.cpp:45-59 | the pointer form returns, as indices, exactly the points inside, each naming an inside point |
| Containment.InsidePoints | ConvexHull.cpp:64-71 | the copy form adds no more points than it scans |
| Containment.FormsAgree | ConvexHull.cpp:45-72 | the two forms select the same points in the same order |
| Containment.PointInsidePolygonCopy | ConvexHull.cpp:62-72 | the copy form appends the inside points to the output and keeps what was there |
| Containment.SquareCentreInside | ConvexHull.h:138-175 | (2,2) is inside the 4×4 square |
| Containment.SquareCentreEdges | ConvexHull.h:147-172 | for (2,2) no edge of the square stops the scan and only the right edge toggles |
| Containment.SquareLeftCrossing | ConvexHull.h:162 | the left edge crosses y=2 at x=0 |
| Containment.SquareRightCrossing | ConvexHull.h:162 | the right edge crosses y=2 at x=4 |
| Containment.SquareOutside | ConvexHull.h:138-175 | (5,5) and the vertex (0,0) are outside the square |
| Metrics.Next | ConvexHull.cpp:84 | the wrap-around successor is a valid index |
| Metrics.NextIsMod | ConvexHull.cpp:84 | the successor is (i + 1) mod size |
| Metrics.Area | ConvexHull.cpp:74-91 | the area is non-negative and 0 for the empty polygon |
| Metrics.PolygonArea | ConvexHull.cpp:74-91 | the loop computes Area: the absolute shoelace sum over two |
| Metrics.Wedge | ConvexHull.cpp:85-86 | definition: the cross product x_a·y_b − y_a·x_b of two position vectors |
| Metrics.ShoelaceTerm | ConvexHull.cpp:84-86 | definition: the wedge of vertex k and its cyclic successor (k + 1) mod n |
| Metrics.ShoelaceSum | ConvexHull.cpp:82-87 | definition: the sum of the first i shoelace terms, each the wedge of a vertex and its cyclic successor |
| Metrics.Shoelace | ConvexHull.cpp:82-87 | definition: the shoelace sum over all vertices (twice the signed area) |
| Metrics.ShoelaceClosingDuplicate | ConvexHull.cpp:82-87 | repeating the first vertex at the end leaves the shoelace sum unchanged |
| Metrics.ShoelacePrefix | ConvexHull.cpp:82-87 | appending that vertex leaves the partial sums before the last term unchanged |
| Metrics.AreaClosingDuplicate | ConvexHull.cpp:74-91 | a hull with its closing point has the same area as without it |
| Metrics.TriangleArea | ConvexHull.cpp:82-90 | the shoelace sum of a triangle is its cross product, so its area is \|cross\|/2 |
| Metrics.WedgeSumIsCross | ConvexHull.cpp:85-86 | the three shoelace terms of a triangle add up to cross(a, b, c) |
| Metrics.SquareArea | ConvexHull.cpp:74-91 | the 4×4 square has area 16, with or without its closing point |
| Metrics.SquareShoelace | ConvexHull.cpp:82-87 | the square's shoelace sum is 32 |
| Metrics.SquareWedgesBelow | ConvexHull.cpp:85-86 | the square's first two shoelace terms are 0 and 16 |
| Metrics.SquareWedgesAbove | ConvexHull.cpp:85-86 | its last two shoelace terms are 16 and 0 |
| Metrics.PathLength | ConvexHull.cpp:101-104 | definition: the length of the open path through the first i + 1 vertices |
| Metrics.Perimeter | ConvexHull.cpp:94-109 | definition: that path through all vertices plus the edge from the last vertex back to the first, 0 for the empty polygon |
| Metrics.PathLengthGrows | ConvexHull.cpp:101-104 | the running perimeter is non-negative and never decreases |
| Metrics.PerimeterArea | ConvexHull.cpp:94-109 | the loop computes Perimeter, which is non-negative and 0 for the empty polygon |
| Metrics.SquarePerimeter | ConvexHull.cpp:94-109 | with sides of length 4 the square's perimeter, closing edge included, is 16 |
| Metrics.PathPrefix | ConvexHull.cpp:101-104 | appending the first vertex leaves the running lengths before it unchanged |
| Metrics.PerimeterClosingDuplicate | ConvexHull.cpp:94-109 | a hull with its closing point measures the same, plus dist(h0, h0) |
| Metrics.SumX | ConvexHull.cpp:118-119 | definition: the sum of the x coordinates of the first i vertices |
| Metrics.SumY | ConvexHull.cpp:118-119 | definition: the sum of the y coordinates of the first i vertices |
| Metrics.Baricenter | ConvexHull.cpp:112-124 | definition: (−1 + Σx)/n and (−1 + Σy)/n, and (−1, −1) for the empty polygon |
| Metrics.CalculatePolygonBaricenter | ConvexHull.cpp:112-124 | the result is the vertex mean minus 1/n in each coordinate (the running sum starts at −1), and (−1,−1) for the empty polygon |
| Metrics.DivSplit | ConvexHull.cpp:121 | supporting lemma: division by the count distributes over the −1 seed and the sum |
| Metrics.SumTranslate | ConvexHull.cpp:118-119 | translating by d adds i·d to the coordinate sums of i vertices |
| Metrics.BaricenterTranslate | ConvexHull.cpp:112-124 | translating a polygon by d translates its centre by d |
| Metrics.ShiftedMean | ConvexHull.cpp:121 | supporting lemma: (s + n·d)/n = s/n + d |
| Metrics.SumPrefixAgree | ConvexHull.cpp:118-119 | the coordinate sums over the first j vertices depend only on those vertices |
| Metrics.SumAppend | ConvexHull.cpp:118-119 | coordinate sums add up over a concatenation |
| Metrics.BaricenterSwap | ConvexHull.cpp:112-124 | listing the two parts of a vertex list in the other order leaves the centre unchanged |
| Metrics.SquareBaricenter | ConvexHull.cpp:112-124 | the 4×4 square's centre is (1.75, 1.75) |
| Descriptor.ModAddMultiple | ConvexHull.cpp:141-142 | supporting lemma: adding multiples of n does not change an index mod n |
| Descriptor.ModAddN | ConvexHull.cpp:141-142 | supporting lemma: adding n does not change an index mod n |
| Descriptor.ModUnique | ConvexHull.cpp:141-142 | supporting lemma: x = q·n + r with 0 ≤ r < n gives x mod n = r |
| Descriptor.MulAtLeast | ConvexHull.cpp:141-142 | supporting lemma: a ≥ 1 gives a·n ≥ n |
| Descriptor.ModAddReduce | ConvexHull.cpp:141-142 | supporting lemma: reducing a start index mod n first gives the same vertex index |
| Descriptor.Slot | ConvexHull.cpp:141-148 | each descriptor slot is a distance, so non-negative |
| Descriptor.StripRatio | ConvexHull.cpp:127-149 | the descriptor has seven non-negative slots |
| Descriptor.FindTriangleStripRatio | ConvexHull.cpp:127-149 | seven slots are written for three or more vertices; otherwise the array is left untouched |
| Descriptor.Rotate | ConvexHull.cpp:141-142 | rotating a polygon keeps its number of vertices |
| Descriptor.StripRatioRotate | ConvexHull.cpp:141-148 | the descriptor of a rotated polygon from start s is the unrotated polygon's from s + r |
| Descriptor.StripRatioPeriodic | ConvexHull.cpp:141-148 | start s and start s + n give the same descriptor |
| Descriptor.Inverted | ConvexHull.cpp:161-168 | inversion keeps the length |
| Descriptor.InvertedInvolution | ConvexHull.cpp:161-168 | inverting twice restores the array; zero slots stay zero and non-zero slots stay non-zero; signs are kept |
| Descriptor.Reciprocal | ConvexHull.cpp:165-166 | the reciprocal of a non-zero value is non-zero, has the same sign, and inverts back |
| Descriptor.InvertTriangleStripRatio | ConvexHull.cpp:161-168 | the array becomes Inverted of its old contents |
| Descriptor.FindTriangleStripRatioInverse | ConvexHull.cpp:151-158 | the array holds the inverted descriptor, or the inverted old contents below three vertices |
| Descriptor.Products | ConvexHull.cpp:177-178 | the slot products have the arrays' length |
| Descriptor.CompareRatioArrays | ConvexHull.cpp:170-185 | the second array is overwritten with the slot products and the result is their mean, even when both arguments are one array |
| Descriptor.Sum | ConvexHull.cpp:175-180 | definition: the sum of the slots, accumulated from the first |
| Descriptor.CompareRatio | ConvexHull.cpp:170-185 | definition: the sum of the slot products times 1/7 |
| Descriptor.SumPrefixStep | ConvexHull.cpp:179 | the running sum grows by one slot per step |
| Descriptor.SumConstant | ConvexHull.cpp:175-180 | a sum of n equal slots c is n·c |
| Descriptor.SumNonNeg | ConvexHull.cpp:175-180 | a sum of non-negative slots is non-negative |
| Descriptor.SumOneGap | ConvexHull.cpp:175-180 | supporting lemma: n slots of 1 with a single 0 sum to n − 1 |
| Descriptor.SelfProducts | ConvexHull.cpp:161-178 | against its own inversion a descriptor gives product 1 in every non-zero slot and 0 in every zero slot, which the guarded inversion keeps |
| Descriptor.CompareOneZeroSlot | ConvexHull.cpp:161-185 | a descriptor with exactly one zero slot compares to 6/7 against its own inversion |
| Descriptor.CompareScaledCopy | ConvexHull.cpp:170-185 | against an inverted descriptor without zero slots, a copy scaled by c compares to exactly c and the descriptor itself to 1 |
| Descriptor.ScaledReciprocal | ConvexHull.cpp:177 | supporting lemma: (1/x)·(c·x) = c for x ≠ 0 |
| Descriptor.CompareNonNeg | ConvexHull.cpp:170-185 | non-negative descriptors give non-negative products and comparison |
| Descriptor.ProductNonNeg | ConvexHull.cpp:177 | supporting lemma: the product of non-negatives is non-negative |
| Comparator.Raw | ConvexHull.cpp:207-209 | definition: the comparison of the inverted first descriptor from vertex 0 with the second hull's descriptor from vertex i |
| Comparator.Deviation | ConvexHull.cpp:211 | definition: the distance of that comparison from 1 |
| Comparator.BestIndex | ConvexHull.cpp:201-219 | the kept start has the least deviation of all starts, and is the first such start |
| Comparator.Aligned | ConvexHull.cpp:228-232 | the overwritten array of walk step i has seven non-negative slots |
| Comparator.AlignedDeviation | ConvexHull.cpp:232-234 | the deviation of a walk step is non-negative |
| Comparator.Relative | ConvexHull.cpp:238 | the relative difference is non-negative |
| Comparator.IsOutlier | ConvexHull.cpp:238-247 | definition: the two-stage test: the step's deviation, and then slot 1 of its products, each differ from the best deviation by more than 0.25 of their sum (plus 1e-5) |
| Comparator.DiffSum | ConvexHull.cpp:226-236 | definition: the sum of the aligned deviations of the first n walk steps |
| Comparator.Outliers | ConvexHull.cpp:226-249 | at most one outlier per step, each a vertex of the second hull |
| Comparator.CompareHullsSpec | ConvexHull.cpp:187-259 | definition: {0, 0, empty} below three vertices, otherwise 1 − DiffSum/n, 1 + the raw value at BestIndex, and the outliers of the walk |
| Comparator.CompareHulls | ConvexHull.cpp:187-259 | the method computes CompareHullsSpec: {0, 0, empty} for a hull under three vertices, otherwise at most one outlier per vertex, all taken from the second hull |
| Comparator.FindBestAlignment | ConvexHull.cpp:201-219 | the first loop keeps BestIndex with its deviation and raw value |
| Comparator.RawIs | ConvexHull.cpp:207-211 | supporting lemma: the raw value of start i compares the inverted first descriptor with the second hull's descriptor from i; its deviation is the distance from 1 |
| Comparator.BestIndexStep | ConvexHull.cpp:213-218 | supporting lemma: start n replaces the kept start only when it deviates strictly less |
| Comparator.WalkAligned | ConvexHull.cpp:221-249 | the second loop computes DiffSum and Outliers |
| Comparator.WalkStart | ConvexHull.cpp:221-222 | supporting lemma: the walk starts with a zero sum and no outliers |
| Comparator.AlignedIs | ConvexHull.cpp:228-248 | supporting lemma: one walk step: its products and deviation, the two-stage outlier test, and how the sum and the list grow |
| Comparator.NonDegenerate | ConvexHull.cpp:141-148 | definition: no vertex at distance 0 from the centre and no cyclic edge of length 0, the closing edge from the last vertex to the first included |
| Comparator.EdgeLength | ConvexHull.cpp:146 | definition: the length of the cyclic edge from vertex v to vertex (v + 1) mod n |
| Comparator.NoZeroSlot | ConvexHull.cpp:141-148 | definition: the descriptor from a given start has no slot equal to 0 |
| Comparator.StripRatioNonZero | ConvexHull.cpp:141-148 | with no vertex at the centre and no zero-length cyclic edge (`NonDegenerate`), the descriptor has no zero slot from any start |
| Comparator.SlotNonZero | ConvexHull.cpp:141-148 | supporting lemma: for a `NonDegenerate` hull no single descriptor slot is 0 |
| Comparator.SlotIsEdge | ConvexHull.cpp:141-148 | supporting lemma: an even slot is its vertex's distance to the centre, an odd slot the cyclic edge from that vertex |
| Comparator.SelfRatio | ConvexHull.cpp:170-185 | a descriptor with no zero slot compares to exactly 1 against its own inversion |
| Comparator.DiffSumSelf | ConvexHull.cpp:236 | walking a `NonDegenerate` hull against itself at alignment 0 sums no deviation |
| Comparator.OutliersSelf | ConvexHull.cpp:238-247 | that walk finds no outlier when the best deviation is 0 |
| Comparator.CompareHullsSelf | ConvexHull.cpp:187-259 | a vertex list with no vertex at the centre and no zero-length cyclic edge, the edge from the last vertex back to the first included, compared with itself gives similarity 1, scale 2 and no outliers; no `grahamScan` hull meets this hypothesis (see CompareClosedHullSelf) |
| Comparator.RotateSplit | ConvexHull.cpp:141-142 | a rotation by r is the suffix from r mod n followed by the prefix |
| Comparator.BaricenterRotate | ConvexHull.cpp:112-124 | rotating the vertex list does not move the centre |
| Comparator.StripRatioMod | ConvexHull.cpp:141-148 | a descriptor start counts modulo the number of vertices |
| Comparator.RotationUndone | ConvexHull.cpp:205-207 | supporting lemma: some start k < n of a copy rotated by r lines up with vertex 0: (k + r) mod n = 0 |
| Comparator.CompareHullsRotatedScale | ConvexHull.cpp:187-259 | when the descriptor of a hull from vertex 0 has no zero slot, against a rotated copy of itself the kept alignment has deviation 0, and the reported scale is 2 |
| Comparator.DiffSumNonNeg | ConvexHull.cpp:236 | the summed deviation is non-negative |
| Comparator.ClosingEdgeDegenerate | ConvexHull.cpp:141-148 | a vertex list whose last vertex repeats the first has a zero-length cyclic edge when dist(x, x) = 0, so it is not `NonDegenerate` |
| Comparator.GrahamScanHullDegenerate | ConvexHull.cpp:8-32 | no hull `grahamScan` builds from three or more points is `NonDegenerate` when the distance of its first point to itself is 0 |
| Comparator.ClosedNonDegenerate | ConvexHull.cpp:141-148 | definition: a closed hull of at least four points whose first vertex repeats at the end, with dist(p0, p0) = 0, no vertex at distance 0 from the centre and no zero-length edge other than the closing one; such a hull has at least four points |
| Comparator.ClosedSlot | ConvexHull.cpp:141-148 | in a `ClosedNonDegenerate` hull the only zero slot of the descriptor from start s is the odd slot of the repeated last vertex |
| Comparator.ClosedSelfStep | ConvexHull.cpp:228-248 | walking a `ClosedNonDegenerate` hull of n points against itself, step i deviates by 0 when i + 3 < n and by 1/7 otherwise, and is an outlier exactly when i is n−3 or n−2 |
| Comparator.ClosedOutlierStep | ConvexHull.cpp:238-247 | for a `ClosedNonDegenerate` hull of n points, that step adds vertex i to the outliers exactly when i is n−3 or n−2 |
| Comparator.ClosedSelfDiffSum | ConvexHull.cpp:236 | for a `ClosedNonDegenerate` hull of n points, the deviations of the first m steps sum to 0 while m + 3 ≤ n and to (m + 3 − n)/7 after |
| Comparator.ClosedSelfOutliers | ConvexHull.cpp:226-249 | for a `ClosedNonDegenerate` hull of n points, the outliers after m steps are none, then [p(n−3)], then [p(n−3), p(n−2)] |
| Comparator.ClosedSelfBest | ConvexHull.cpp:201-219 | for a `ClosedNonDegenerate` hull, start 0 matches exactly (raw value 1) and is the kept alignment |
| Comparator.CompareClosedHullSelf | ConvexHull.cpp:187-259 | a `ClosedNonDegenerate` hull of n points (at least four, no vertex on the centre, no zero-length edge other than the closing one) compared with itself gives similarity 1 − 3/(7n), scale 2 and outliers [p(n−3), p(n−2)] |
| Comparator.ClosedSquare | ConvexHull.cpp:112-124 | the square's `grahamScan` hull is closed and otherwise non-degenerate under a distance that is 0 exactly between equal points; its centre is (7/5, 7/5) |
| Comparator.SquareHullSelf | ConvexHull.cpp:187-259 | the 4×4 square's `grahamScan` hull compared with itself gives similarity 32/35, scale 2 and outliers (4,4) and (0,4) |
| Comparator.FlatCentre | ConvexHull.cpp:112-124 | the collinear hull [(0,0),(2,0),(0,0)] has shifted centre (1/3, −1/3) |
| Comparator.FlatVertex | ConvexHull.cpp:141-148 | under the Manhattan distance its vertices lie 2/3, 2, 2/3 from the centre and its cyclic edges are 2, 2, 0 long |
| Comparator.FlatSlot | ConvexHull.cpp:141-148 | supporting lemma: each descriptor slot is the matching vertex distance or edge length |
| Comparator.FlatRatio | ConvexHull.cpp:136-149 | its descriptors from starts 0 to 4 are the three listed ones, repeating with period 3, each with a zero slot |
| Comparator.CompareSeven | ConvexHull.cpp:175-185 | supporting lemma: the comparison of two seven-slot arrays is the sum of their seven products divided by 7 |
| Comparator.FlatRaw | ConvexHull.cpp:207-209 | its inverted start-0 descriptor compares to 6/7, 25/21 and 19/21 against starts 0, 1 and 2 |
| Comparator.FlatBest | ConvexHull.cpp:201-219 | the first loop keeps start 2, whose deviation 2/21 is the least |
| Comparator.FlatStep | ConvexHull.cpp:228-230 | supporting lemma: walk step i from start 2 pairs the inverted descriptor from i with the descriptor from i + 2 |
| Comparator.FlatWalkStep | ConvexHull.cpp:228-247 | supporting lemma: one step of that walk, its deviation and its slot-1 product |
| Comparator.FlatWalk | ConvexHull.cpp:228-247 | the walk's steps deviate by 2/21, 4/21, 4/21 and have slot-1 products 0, 1, 0 |
| Comparator.FlatHullSelf | ConvexHull.cpp:187-259 | the `grahamScan` hull of (0,0),(1,0),(2,0) compared with itself under the Manhattan distance gives similarity 53/63, scale 40/21 and outliers [(0,0), (2,0)] |
| Comparator.CompareHullsBounds | ConvexHull.cpp:256-258 | for comparable hulls, similarity ≤ 1, scale ≥ 1, and at most one outlier per vertex of the second hull |

## Left out

- Floating-point rounding, NaN and infinities are not modelled. Coordinates and distances are reals, the `float`/`double` mix is not kept, and neither is `float` truncation of `crossX` in `contains`.
- `FLT_MAX`, the seed of `best_diff` and `best_scale`, is modelled as "nothing kept yet": the first start is always kept. The branch at ConvexHull.cpp:251-254, which the code takes only when no deviation is below `FLT_MAX` (overflow, infinity or NaN), is therefore not modelled.
- `Point::distance` is a parameter `dist` that returns non-negative reals. The square root, symmetry and the triangle inequality are not assumed. Points.h is not part of this model.
- `SmartPoint` keeps only its coordinate. Its other fields are not read by this class.
- `MatchContainer` is modelled as a sequence of points. Its internals are not part of this model. The `assert` on a non-empty collection is a precondition of `GrahamScanMatches`.
- `pointInsidePolygon` returns raw pointers into the caller's vector. The model returns indices, so the pointers' lifetime and aliasing are not modelled.
- `std::sort` is modelled as an insertion sort (`SortLex`). Only its result matters: sorted and a permutation. Points equal in (x, y) but differing in other fields do not arise, since only the coordinate is kept.
- The `COLINEAR`, `CLOCK_WISE` and `COUNTER_CLOCK_WISE` macros are not used by the class and are not modelled.
- The class has no I/O, and none is modelled.
- Point arithmetic (`operator+`, `operator/` on `Point<float>`) is taken as componentwise.
- ConvexHullTurns: states strict left turns within the lower chain and from the last lower point on. It does not state the turn at the junction of the two passes, or that every input point lies inside the hull.
- CompareHullsRotatedScale: states the scale and the best deviation for a rotated copy, but not similarity 1 or the absence of outliers. The first start of least deviation may belong to a symmetric alignment other than the rotation, and then the walk compares different neighbourhoods.

=== FILE: comparator.dfy ===
/** compareHulls: finds the starting vertex of the second hull whose
    descriptor best matches the inverted descriptor of the first hull read
    from vertex 0, then walks both hulls in step from that alignment and
    reports the mean deviation, the scale and the vertices of the second
    hull that deviate too much. */
module Comparator {
  import opened Geometry
  import opened Metrics
  import opened Descriptor
  import HullBuilder

  /** A deviation counts as an outlier when it differs from the best one by
      more than this fraction of their sum. */
  const OutlierThreshold: real := 0.25
  /** Keeps the relative difference defined when both deviations are 0. */
  const RelativeEpsilon: real := 0.00001

  /** What compareHulls returns. */
  datatype Comparison = Comparison(similarity: real, scale: real, outliers: seq<SmartPoint>)

  predicate Comparable(p1: seq<SmartPoint>, p2: seq<SmartPoint>)
  {
    |p1| >= MinTrianglesToCompare && |p2| >= MinTrianglesToCompare
  }

  /* ---------------- the search for the best alignment ---------------- */

  /** The comparison of the second hull's descriptor from vertex i with the
      inverted descriptor of the first hull from vertex 0. */
  function Raw(p1: seq<SmartPoint>, p2: seq<SmartPoint>, dist: Distance, i: nat): real
    requires Comparable(p1, p2)
  {
    CompareRatio(Inverted(StripRatio(p1, 0, Baricenter(p1), dist)), StripRatio(p2, i, Baricenter(p2), dist))
  }

  /** How far that comparison is from a perfect match. */
  function Deviation(p1: seq<SmartPoint>, p2: seq<SmartPoint>, dist: Distance, i: nat): real
    requires Comparable(p1, p2)
  {
    Abs(Raw(p1, p2, dist, i) - 1.0)
  }

  /** The alignment the first loop keeps after examining starts 0 .. n-1:
      a later start replaces the kept one only when it deviates strictly
      less, so this is the first start of least deviation. */
  function BestIndex(p1: seq<SmartPoint>, p2: seq<SmartPoint>, dist: Distance, n: nat): (b: nat)
    requires Comparable(p1, p2) && 1 <= n
    ensures b < n
    ensures forall k :: 0 <= k < n ==> Deviation(p1, p2, dist, b) <= Deviation(p1, p2, dist, k)
    ensures forall k :: 0 <= k < b ==> Deviation(p1, p2, dist, b) < Deviation(p1, p2, dist, k)
    decreases n
  {
    if n == 1 then 0
    else
      var b := BestIndex(p1, p2, dist, n - 1);
      if Deviation(p1, p2, dist, n - 1) < Deviation(p1, p2, dist, b) then n - 1 else b
  }

  /* ---------------- the walk in step ---------------- */

  /** The slot products of the inverted descriptor of the first hull from
      vertex i and the descriptor of the second hull from vertex i + b. */
  function Aligned(p1: seq<SmartPoint>, p2: seq<SmartPoint>, dist: Distance, b: nat, i: nat): (r: seq<real>)
    requires Comparable(p1, p2)
    ensures |r| == MinEdgeRatioToCompare
    ensures forall k :: 0 <= k < |r| ==> 0.0 <= r[k]
  {
    var a, s := Inverted(StripRatio(p1, i, Baricenter(p1), dist)), StripRatio(p2, i + b, Baricenter(p2), dist);
    InvertedInvolution(StripRatio(p1, i, Baricenter(p1), dist));
    CompareNonNeg(a, s);
    Products(a, s)
  }

  function AlignedDeviation(p1: seq<SmartPoint>, p2: seq<SmartPoint>, dist: Distance, b: nat, i: nat): (d: real)
    requires Comparable(p1, p2)
    ensures 0.0 <= d
  {
    Abs(Sum(Aligned(p1, p2, dist, b, i)) * MinEdgeRatioToCompareInverse - 1.0)
  }

  /** The difference of a and the best deviation, relative to their sum. */
  function Relative(a: real, best: real): (r: real)
    requires 0.0 <= a && 0.0 <= best
    ensures 0.0 <= r
  {
    Abs(a - best) / (a + best + RelativeEpsilon)
  }

  /** Vertex i + b of the second hull is an outlier when both the deviation
      of the aligned descriptors and the product in their slot 1 (the first
      edge) differ from the best deviation by more than the threshold. */
  predicate IsOutlier(p1: seq<SmartPoint>, p2: seq<SmartPoint>, dist: Distance, b: nat, best: real, i: nat)
    requires Comparable(p1, p2) && 0.0 <= best
  {
    Relative(AlignedDeviation(p1, p2, dist, b, i), best) > OutlierThreshold &&
    Relative(Aligned(p1, p2, dist, b, i)[1], best) > OutlierThreshold
  }

  /** The sum of the aligned deviations of steps 0 .. n-1. */
  function DiffSum(p1: seq<SmartPoint>, p2: seq<SmartPoint>, dist: Distance, b: nat, n: nat): real
    requires Comparable(p1, p2)
  {
    if n == 0 then 0.0 else DiffSum(p1, p2, dist, b, n - 1) + AlignedDeviation(p1, p2, dist, b, n - 1)
  }

  /** The outliers found in steps 0 .. n-1, in order: vertices of the second
      hull, at most one per step. */
  function Outliers(p1: seq<SmartPoint>, p2: seq<SmartPoint>, dist: Distance, b: nat, best: real, n: nat)
    : (r: seq<SmartPoint>)
    requires Comparable(p1, p2) && 0.0 <= best
    ensures |r| <= n
    ensures forall q :: q in r ==> q in p2
  {
    if n == 0 then []
    else
      Outliers(p1, p2, dist, b, best, n - 1) +
      (if IsOutlier(p1, p2, dist, b, best, n - 1) then [p2[(n - 1 + b) % |p2|]] else [])
  }

  /** What compareHulls returns for two hulls. */
  function CompareHullsSpec(p1: seq<SmartPoint>, p2: seq<SmartPoint>, dist: Distance): Comparison
  {
    if !Comparable(p1, p2) then Comparison(0.0, 0.0, [])
    else
      var b := BestIndex(p1, p2, dist, |p2|);
      var best := Deviation(p1, p2, dist, b);
      Comparison(1.0 - DiffSum(p1, p2, dist, b, |p2|) / (|p2| as real),
                 1.0 + Raw(p1, p2, dist, b),
                 Outliers(p1, p2, dist, b, best, |p2|))
  }

  /* ---------------- the method ---------------- */

  /** compareHulls. */
  method CompareHulls(polygon1: seq<SmartPoint>, polygon2: seq<SmartPoint>, dist: Distance)
    returns (similarity: real, scale: real, outliers: seq<SmartPoint>)
    ensures Comparison(similarity, scale, outliers) == CompareHullsSpec(polygon1, polygon2, dist)
    ensures !Comparable(polygon1, polygon2) ==> similarity == 0.0 && scale == 0.0 && outliers == []
    ensures |outliers| <= |polygon2| && forall q :: q in outliers ==> q in polygon2
  {
    if |polygon1| < MinTrianglesToCompare || |polygon2| < MinTrianglesToCompare {
      return 0.0, 0.0, [];
    }
    var massCenter1 := CalculatePolygonBaricenter(polygon1);
    var massCenter2 := CalculatePolygonBaricenter(polygon2);
    var arrayOfRatio1 := new real[MinEdgeRatioToCompare];
    var arrayOfRatio2 := new real[MinEdgeRatioToCompare];

    FindTriangleStripRatio(polygon1, 0, massCenter1, dist, arrayOfRatio1);
    InvertTriangleStripRatio(arrayOfRatio1);
    var bestDiff, bestScale, bestIndex :=
      FindBestAlignment(polygon1, polygon2, dist, massCenter2, arrayOfRatio1, arrayOfRatio2);

    // the first step always keeps its start, so the branch of
    // ConvexHull.cpp that answers when nothing was kept is never taken
    var averageDiff;
    averageDiff, outliers :=
      WalkAligned(polygon1, polygon2, dist, massCenter1, massCenter2, bestIndex, bestDiff, arrayOfRatio1, arrayOfRatio2);
    averageDiff := averageDiff / (|polygon2| as real);
    similarity, scale := 1.0 - averageDiff, 1.0 + bestScale;
  }

  /** The first loop of compareHulls: every start of the second hull is
      compared with the inverted descriptor held in ratio1, keeping the
      first start of least deviation. best_diff and best_scale start at
      the largest float; here the first start is kept unconditionally. */
  method FindBestAlignment(polygon1: seq<SmartPoint>, polygon2: seq<SmartPoint>, dist: Distance,
                           massCenter2: Point, ratio1: array<real>, ratio2: array<real>)
    returns (bestDiff: real, bestScale: real, bestIndex: nat)
    requires Comparable(polygon1, polygon2) && massCenter2 == Baricenter(polygon2)
    requires ratio1 != ratio2 && ratio1.Length == MinEdgeRatioToCompare && ratio2.Length == MinEdgeRatioToCompare
    requires ratio1[..] == Inverted(StripRatio(polygon1, 0, Baricenter(polygon1), dist))
    modifies ratio2
    ensures bestIndex == BestIndex(polygon1, polygon2, dist, |polygon2|)
    ensures bestDiff == Deviation(polygon1, polygon2, dist, bestIndex)
    ensures bestScale == Raw(polygon1, polygon2, dist, bestIndex)
  {
    hide Raw, Deviation, BestIndex, StripRatio, Inverted, CompareRatio, Baricenter;
    bestDiff, bestScale, bestIndex := 0.0, 0.0, 0;
    for i := 0 to |polygon2|
      invariant ratio1[..] == Inverted(StripRatio(polygon1, 0, Baricenter(polygon1), dist))
      invariant i > 0 ==> bestIndex == BestIndex(polygon1, polygon2, dist, i)
      invariant i > 0 ==> bestDiff == Deviation(polygon1, polygon2, dist, bestIndex)
      invariant i > 0 ==> bestScale == Raw(polygon1, polygon2, dist, bestIndex)
    {
      FindTriangleStripRatio(polygon2, i, massCenter2, dist, ratio2);
      var differenceRaw := CompareRatioArrays(ratio1, ratio2);
      RawIs(polygon1, polygon2, dist, i);
      var differenceAbs := Abs(differenceRaw - 1.0);
      BestIndexStep(polygon1, polygon2, dist, i);
      if i == 0 || differenceAbs < bestDiff {
        bestDiff := differenceAbs;
        bestScale := differenceRaw;
        bestIndex := i;
      }
    }
  }

  /** Raw and Deviation of start i, unfolded. */
  lemma RawIs(p1: seq<SmartPoint>, p2: seq<SmartPoint>, dist: Distance, i: nat)
    requires Comparable(p1, p2)
    ensures Raw(p1, p2, dist, i)
         == CompareRatio(Inverted(StripRatio(p1, 0, Baricenter(p1), dist)), StripRatio(p2, i, Baricenter(p2), dist))
    ensures Deviation(p1, p2, dist, i) == Abs(Raw(p1, p2, dist, i) - 1.0)
  {
  }

  /** One step of the search for the best start. */
  lemma BestIndexStep(p1: seq<SmartPoint>, p2: seq<SmartPoint>, dist: Distance, n: nat)
    requires Comparable(p1, p2)
    ensures n == 0 ==> BestIndex(p1, p2, dist, 1) == 0
    ensures n > 0 ==>
              BestIndex(p1, p2, dist, n + 1)
              == if Deviation(p1, p2, dist, n) < Deviation(p1, p2, dist, BestIndex(p1, p2, dist, n))
                 then n else BestIndex(p1, p2, dist, n)
  {
  }

  /** The second loop of compareHulls: step i compares the inverted
      descriptor of the first hull from vertex i with the descriptor of the
      second hull from vertex i + bestIndex, sums the deviations and
      collects the outliers. */
  method WalkAligned(polygon1: seq<SmartPoint>, polygon2: seq<SmartPoint>, dist: Distance,
                     massCenter1: Point, massCenter2: Point, bestIndex: nat, bestDiff: real,
                     ratio1: array<real>, ratio2: array<real>)
    returns (averageDiff: real, outliers: seq<SmartPoint>)
    requires Comparable(polygon1, polygon2) && 0.0 <= bestDiff
    requires massCenter1 == Baricenter(polygon1) && massCenter2 == Baricenter(polygon2)
    requires ratio1 != ratio2 && ratio1.Length == MinEdgeRatioToCompare && ratio2.Length == MinEdgeRatioToCompare
    modifies ratio1, ratio2
    ensures averageDiff == DiffSum(polygon1, polygon2, dist, bestIndex, |polygon2|)
    ensures outliers == Outliers(polygon1, polygon2, dist, bestIndex, bestDiff, |polygon2|)
  {
    hide StripRatio, Inverted, Products, Sum, CompareRatio, Baricenter, Aligned, AlignedDeviation,
      IsOutlier, DiffSum, Outliers;
    WalkStart(polygon1, polygon2, dist, bestIndex, bestDiff);
    outliers := [];
    averageDiff := 0.0;
    for i := 0 to |polygon2|
      invariant averageDiff == DiffSum(polygon1, polygon2, dist, bestIndex, i)
      invariant outliers == Outliers(polygon1, polygon2, dist, bestIndex, bestDiff, i)
    {
      FindTriangleStripRatioInverse(polygon1, i, massCenter1, dist, ratio1);
      ghost var a := ratio1[..];
      FindTriangleStripRatio(polygon2, i + bestIndex, massCenter2, dist, ratio2);
      ghost var s := ratio2[..];
      assert ratio1[..] == a;
      var difference := CompareRatioArrays(ratio1, ratio2);
      AlignedIs(polygon1, polygon2, dist, bestIndex, bestDiff, i);
      assert ratio2[..] == Aligned(polygon1, polygon2, dist, bestIndex, i);
      assert 0.0 <= ratio2[1];
      difference := Abs(difference - 1.0);
      averageDiff := averageDiff + difference;
      difference := Abs(difference - bestDiff) / (difference + bestDiff + RelativeEpsilon);
      if difference > OutlierThreshold {
        difference := Abs(ratio2[1] - bestDiff) / (ratio2[1] + bestDiff + RelativeEpsilon);
        if difference > OutlierThreshold {
          outliers := outliers + [polygon2[(i + bestIndex) % |polygon2|]];
        }
      }
    }
  }

  /** Before the walk: nothing summed, no outliers. */
  lemma WalkStart(p1: seq<SmartPoint>, p2: seq<SmartPoint>, dist: Distance, b: nat, best: real)
    requires Comparable(p1, p2) && 0.0 <= best
    ensures DiffSum(p1, p2, dist, b, 0) == 0.0
    ensures Outliers(p1, p2, dist, b, best, 0) == []
  {
  }

  /** Step i of the walk, unfolded. */
  lemma AlignedIs(p1: seq<SmartPoint>, p2: seq<SmartPoint>, dist: Distance, b: nat, best: real, i: nat)
    requires Comparable(p1, p2) && 0.0 <= best
    ensures Aligned(p1, p2, dist, b, i)
         == Products(Inverted(StripRatio(p1, i, Baricenter(p1), dist)), StripRatio(p2, i + b, Baricenter(p2), dist))
    ensures AlignedDeviation(p1, p2, dist, b, i)
         == Abs(CompareRatio(Inverted(StripRatio(p1, i, Baricenter(p1), dist)), StripRatio(p2, i + b, Baricenter(p2), dist)) - 1.0)
    ensures IsOutlier(p1, p2, dist, b, best, i) <==>
              (Relative(AlignedDeviation(p1, p2, dist, b, i), best) > OutlierThreshold &&
               Relative(Aligned(p1, p2, dist, b, i)[1], best) > OutlierThreshold)
    ensures DiffSum(p1, p2, dist, b, i + 1) == DiffSum(p1, p2, dist, b, i) + AlignedDeviation(p1, p2, dist, b, i)
    ensures Outliers(p1, p2, dist, b, best, i + 1)
         == Outliers(p1, p2, dist, b, best, i) + (if IsOutlier(p1, p2, dist, b, best, i) then [p2[(i + b) % |p2|]] else [])
  {
  }

  /* ---------------- properties ---------------- */

  /** A hull whose descriptors have no zero slot: no vertex sits on the
      mass centre and no cyclic edge, the one from the last vertex back to
      the first included, has length zero. */
  predicate NonDegenerate(p: seq<SmartPoint>, dist: Distance)
    requires |p| > 0
  {
    forall v :: 0 <= v < |p| ==> dist(p[v].coord, Baricenter(p)) != 0.0 && EdgeLength(p, dist, v) != 0.0
  }

  /** The length of the cyclic edge from vertex v to the next vertex. */
  function EdgeLength(p: seq<SmartPoint>, dist: Distance, v: nat): real
    requires v < |p|
  {
    dist(p[v].coord, p[(v + 1) % |p|].coord)
  }

  /** The descriptor of p from `start` has no zero slot. */
  predicate NoZeroSlot(p: seq<SmartPoint>, dist: Distance, start: nat)
    requires |p| >= MinTrianglesToCompare
  {
    forall k :: 0 <= k < MinEdgeRatioToCompare ==> StripRatio(p, start, Baricenter(p), dist)[k] != 0.0
  }

  /** For such a hull no slot of any descriptor is 0: its vertex is off
      the centre and its edge has non-zero length. */
  lemma SlotNonZero(p: seq<SmartPoint>, dist: Distance, start: nat, k: nat)
    requires |p| >= MinTrianglesToCompare && NonDegenerate(p, dist)
    ensures Slot(p, start, Baricenter(p), dist, k) != 0.0
  {
    hide Baricenter, Slot, EdgeLength;
    var v := (start + k / 2) % |p|;
    SlotIsEdge(p, start, Baricenter(p), dist, k);
    assert dist(p[v].coord, Baricenter(p)) != 0.0 && EdgeLength(p, dist, v) != 0.0;
  }

  /** An even slot is its vertex's distance to c, an odd slot the cyclic
      edge from its vertex. */
  lemma SlotIsEdge(p: seq<SmartPoint>, start: nat, c: Point, dist: Distance, k: nat)
    requires |p| > 0
    ensures Slot(p, start, c, dist, k)
         == if k % 2 == 0 then dist(p[(start + k / 2) % |p|].coord, c) else EdgeLength(p, dist, (start + k / 2) % |p|)
  {
    ModAddReduce(start + k / 2, 1, |p|);
  }

  /** So every descriptor, from any start, has no zero slot. */
  lemma StripRatioNonZero(p: seq<SmartPoint>, dist: Distance, start: nat)
    requires |p| >= MinTrianglesToCompare && NonDegenerate(p, dist)
    ensures NoZeroSlot(p, dist, start)
  {
    hide Baricenter, NonDegenerate, Slot;
    forall k | 0 <= k < MinEdgeRatioToCompare
      ensures StripRatio(p, start, Baricenter(p), dist)[k] != 0.0
    {
      SlotNonZero(p, dist, start, k);
    }
  }

  /** Against itself a descriptor without zero slots compares to exactly 1. */
  lemma SelfRatio(p: seq<SmartPoint>, dist: Distance, start: nat)
    requires |p| >= MinTrianglesToCompare && NoZeroSlot(p, dist, start)
    ensures CompareRatio(Inverted(StripRatio(p, start, Baricenter(p), dist)), StripRatio(p, start, Baricenter(p), dist)) == 1.0
  {
    CompareScaledCopy(StripRatio(p, start, Baricenter(p), dist), 1.0);
  }

  /** Walking a hull against itself from alignment 0 sums no deviation. */
  lemma {:induction false} DiffSumSelf(p: seq<SmartPoint>, dist: Distance, n: nat)
    requires Comparable(p, p) && NonDegenerate(p, dist)
    ensures DiffSum(p, p, dist, 0, n) == 0.0
  {
    hide StripRatio, Inverted, CompareRatio, Products, Sum, Baricenter, Aligned, AlignedDeviation, Slot,
      NonDegenerate, NoZeroSlot;
    if n > 0 {
      DiffSumSelf(p, dist, n - 1);
      StripRatioNonZero(p, dist, n - 1);
      SelfRatio(p, dist, n - 1);
      AlignedIs(p, p, dist, 0, 0.0, n - 1);
      assert AlignedDeviation(p, p, dist, 0, n - 1) == 0.0;
    }
  }

  /** ... and finds no outlier when the best deviation is 0. */
  lemma {:induction false} OutliersSelf(p: seq<SmartPoint>, dist: Distance, n: nat)
    requires Comparable(p, p) && NonDegenerate(p, dist)
    ensures Outliers(p, p, dist, 0, 0.0, n) == []
  {
    hide StripRatio, Inverted, CompareRatio, Products, Sum, Baricenter, Aligned, AlignedDeviation, Slot,
      IsOutlier, NonDegenerate, NoZeroSlot;
    if n > 0 {
      OutliersSelf(p, dist, n - 1);
      StripRatioNonZero(p, dist, n - 1);
      SelfRatio(p, dist, n - 1);
      AlignedIs(p, p, dist, 0, 0.0, n - 1);
      assert AlignedDeviation(p, p, dist, 0, n - 1) == 0.0;
      assert Relative(0.0, 0.0) == 0.0;
      assert !IsOutlier(p, p, dist, 0, 0.0, n - 1);
    }
  }

  /** A NonDegenerate vertex list compared with itself: the best alignment
      is vertex 0, every step matches, the similarity is 1, no vertex is an
      outlier, and the reported scale is 2 because compareHulls returns 1
      plus the raw comparison value. A closed hull as grahamScan builds it
      is never NonDegenerate (GrahamScanHullDegenerate); for those see
      CompareClosedHullSelf. */
  lemma CompareHullsSelf(p: seq<SmartPoint>, dist: Distance)
    requires |p| >= MinTrianglesToCompare && NonDegenerate(p, dist)
    ensures CompareHullsSpec(p, p, dist) == Comparison(1.0, 2.0, [])
  {
    hide StripRatio, Inverted, CompareRatio, Products, Sum, Baricenter, Slot, DiffSum, Outliers, NonDegenerate;
    StripRatioNonZero(p, dist, 0);
    SelfRatio(p, dist, 0);
    assert Raw(p, p, dist, 0) == 1.0;
    assert Deviation(p, p, dist, 0) == 0.0;
    var b := BestIndex(p, p, dist, |p|);
    assert Deviation(p, p, dist, b) <= Deviation(p, p, dist, 0);
    assert b == 0;
    DiffSumSelf(p, dist, |p|);
    OutliersSelf(p, dist, |p|);
  }

  /** The sum of deviations is never negative. */
  lemma {:induction false} DiffSumNonNeg(p1: seq<SmartPoint>, p2: seq<SmartPoint>, dist: Distance, b: nat, n: nat)
    requires Comparable(p1, p2)
    ensures 0.0 <= DiffSum(p1, p2, dist, b, n)
  {
    if n > 0 {
      DiffSumNonNeg(p1, p2, dist, b, n - 1);
    }
  }

  /** For any two comparable hulls the similarity is at most 1 and the
      scale at least 1, since every comparison value is non-negative. */
  lemma CompareHullsBounds(p1: seq<SmartPoint>, p2: seq<SmartPoint>, dist: Distance)
    requires Comparable(p1, p2)
    ensures CompareHullsSpec(p1, p2, dist).similarity <= 1.0
    ensures CompareHullsSpec(p1, p2, dist).scale >= 1.0
    ensures |CompareHullsSpec(p1, p2, dist).outliers| <= |p2|
  {
    var b := BestIndex(p1, p2, dist, |p2|);
    DiffSumNonNeg(p1, p2, dist, b, |p2|);
    var s1 := StripRatio(p1, 0, Baricenter(p1), dist);
    InvertedInvolution(s1);
    CompareNonNeg(Inverted(s1), StripRatio(p2, b, Baricenter(p2), dist));
  }

  /* ---------------- rotated copies ---------------- */

  /** A rotation by r is the suffix from r mod n followed by the prefix. */
  lemma RotateSplit(p: seq<SmartPoint>, r: nat)
    requires |p| > 0
    ensures Rotate(p, r) == p[r % |p|..] + p[..r % |p|]
  {
    var n, m := |p|, r % |p|;
    forall k | 0 <= k < n
      ensures Rotate(p, r)[k] == (p[m..] + p[..m])[k]
    {
      ModAddReduce(r, k, n);
      if k < n - m {
        ModUnique(m + k, 0, m + k, n);
      } else {
        ModUnique(m + k, 1, m + k - n, n);
      }
    }
  }

  /** Rotating the vertex list does not move the vertex mean. */
  lemma BaricenterRotate(p: seq<SmartPoint>, r: nat)
    requires |p| > 0
    ensures Baricenter(Rotate(p, r)) == Baricenter(p)
  {
    var m := r % |p|;
    RotateSplit(p, r);
    BaricenterSwap(p[m..], p[..m]);
    assert p[..m] + p[m..] == p;
  }

  /** A descriptor start counts modulo the number of vertices. */
  lemma StripRatioMod(p: seq<SmartPoint>, start: nat, c: Point, dist: Distance)
    requires |p| >= MinTrianglesToCompare
    ensures StripRatio(p, start, c, dist) == StripRatio(p, start % |p|, c, dist)
  {
    forall k | 0 <= k < MinEdgeRatioToCompare
      ensures Slot(p, start, c, dist, k) == Slot(p, start % |p|, c, dist, k)
    {
      ModAddReduce(start, k / 2, |p|);
      ModAddReduce(start, k / 2 + 1, |p|);
    }
  }

  /** The start of the rotated copy that lines up with vertex 0. */
  lemma RotationUndone(n: nat, r: nat) returns (k: nat)
    requires n > 0
    ensures k < n && (k + r) % n == 0
  {
    var m := r % n;
    if m == 0 {
      k := 0;
    } else {
      k := n - m;
      assert k + r == (r / n + 1) * n;
      ModUnique(k + r, r / n + 1, 0, n);
    }
  }

  /** A hull compared with a copy of itself listed from another vertex:
      some start of the copy matches exactly, so the kept alignment has
      deviation 0, its raw value is 1, and the reported scale is 2. */
  lemma CompareHullsRotatedScale(p: seq<SmartPoint>, r: nat, dist: Distance)
    requires |p| >= MinTrianglesToCompare && NoZeroSlot(p, dist, 0)
    ensures Deviation(p, Rotate(p, r), dist, BestIndex(p, Rotate(p, r), dist, |p|)) == 0.0
    ensures CompareHullsSpec(p, Rotate(p, r), dist).scale == 2.0
  {
    hide StripRatio, Inverted, CompareRatio, Products, Sum, Baricenter, Slot, DiffSum, Outliers, NoZeroSlot, Rotate;
    var q := Rotate(p, r);
    var k := RotationUndone(|p|, r);
    BaricenterRotate(p, r);
    StripRatioRotate(p, r, k, Baricenter(p), dist);
    StripRatioMod(p, k + r, Baricenter(p), dist);
    assert StripRatio(q, k, Baricenter(q), dist) == StripRatio(p, 0, Baricenter(p), dist);
    SelfRatio(p, dist, 0);
    assert Raw(p, q, dist, k) == 1.0;
    assert Deviation(p, q, dist, k) == 0.0;
    var b := BestIndex(p, q, dist, |p|);
    assert Deviation(p, q, dist, b) <= Deviation(p, q, dist, k);
    assert Raw(p, q, dist, b) == 1.0;
  }

  /* ---------------- closed hulls ---------------- */

  /** A hull as grahamScan returns it: the first vertex repeated at the end,
      a distance that is 0 from a point to itself, no vertex on the mass
      centre and no zero-length edge other than the closing one. */
  predicate ClosedNonDegenerate(p: seq<SmartPoint>, dist: Distance)
    ensures ClosedNonDegenerate(p, dist) ==> |p| >= MinEdgesToCompare
  {
    |p| >= MinEdgesToCompare && p[|p| - 1] == p[0] && dist(p[0].coord, p[0].coord) == 0.0 &&
    (forall v :: 0 <= v < |p| ==> dist(p[v].coord, Baricenter(p)) != 0.0) &&
    (forall v :: 0 <= v < |p| - 1 ==> dist(p[v].coord, p[v + 1].coord) != 0.0)
  }

  /** A closed vertex list is never NonDegenerate: the cyclic edge from the
      repeated last vertex back to the first has length 0. */
  lemma ClosingEdgeDegenerate(p: seq<SmartPoint>, dist: Distance)
    requires |p| >= 2 && p[|p| - 1] == p[0] && dist(p[0].coord, p[0].coord) == 0.0
    ensures !NonDegenerate(p, dist)
  {
    var v := |p| - 1;
    assert (v + 1) % |p| == 0;
    assert dist(p[v].coord, p[(v + 1) % |p|].coord) == 0.0;
  }

  /** So no hull grahamScan builds meets the hypothesis of CompareHullsSelf
      when the distance of a point to itself is 0. */
  lemma GrahamScanHullDegenerate(stack: seq<SmartPoint>, dist: Distance)
    requires |stack| >= 3
    requires dist(HullBuilder.SortLex(stack)[0].coord, HullBuilder.SortLex(stack)[0].coord) == 0.0
    ensures |HullBuilder.ConvexHullOf(stack)| >= 2 && !NonDegenerate(HullBuilder.ConvexHullOf(stack), dist)
  {
    hide HullBuilder.ConvexHullOf, HullBuilder.SortLex, NonDegenerate;
    HullBuilder.ConvexHullClosed(stack);
    ClosingEdgeDegenerate(HullBuilder.ConvexHullOf(stack), dist);
  }

  /** In a closed hull the only zero slot of a descriptor is the closing
      edge: the odd slot whose vertex is the repeated last one. */
  lemma ClosedSlot(p: seq<SmartPoint>, dist: Distance, start: nat, k: nat)
    requires ClosedNonDegenerate(p, dist) && start < |p| && k < MinEdgeRatioToCompare
    ensures StripRatio(p, start, Baricenter(p), dist)[k] == 0.0 <==> (k % 2 == 1 && start + k / 2 == |p| - 1)
  {
    var n, u := |p|, start + k / 2;
    var v := if u < n then u else u - n;
    var w := if u + 1 < n then u + 1 else u + 1 - n;
    ModUnique(u, if u < n then 0 else 1, v, n);
    ModUnique(u + 1, if u + 1 < n then 0 else 1, w, n);
    assert StripRatio(p, start, Baricenter(p), dist)[k] == Slot(p, start, Baricenter(p), dist, k);
    if k % 2 == 1 {
      if v == n - 1 {
        assert w == 0;
      } else {
        assert w == v + 1;
      }
    }
  }

  /** Step i of the walk of a closed hull against itself: the three starts
      whose descriptor reaches the closing edge compare to 6/7, and of those
      only the two whose slot 1 is a real edge count as outliers. */
  lemma ClosedSelfStep(p: seq<SmartPoint>, dist: Distance, i: nat)
    requires ClosedNonDegenerate(p, dist) && i < |p|
    ensures AlignedDeviation(p, p, dist, 0, i) == (if i + 3 < |p| then 0.0 else 1.0 / 7.0)
    ensures IsOutlier(p, p, dist, 0, 0.0, i) <==> (i + 3 == |p| || i + 2 == |p|)
  {
    hide Inverted, CompareRatio, Products, Sum, Baricenter, Slot, ClosedNonDegenerate;
    var s := StripRatio(p, i, Baricenter(p), dist);
    AlignedIs(p, p, dist, 0, 0.0, i);
    assert i + 0 == i;
    forall k | 0 <= k < MinEdgeRatioToCompare
      ensures s[k] == 0.0 <==> (k % 2 == 1 && i + k / 2 == |p| - 1)
    {
      ClosedSlot(p, dist, i, k);
    }
    if i + 3 < |p| {
      assert NoZeroSlot(p, dist, i);
      SelfRatio(p, dist, i);
      assert Relative(0.0, 0.0) == 0.0;
    } else {
      var j := 2 * (|p| - 1 - i) + 1;
      CompareOneZeroSlot(s, j);
      assert Aligned(p, p, dist, 0, i)[1] == (if i + 1 == |p| then 0.0 else 1.0);
      assert Relative(1.0 / 7.0, 0.0) > OutlierThreshold;
      assert Relative(1.0, 0.0) > OutlierThreshold;
      assert Relative(0.0, 0.0) == 0.0;
    }
  }

  /** The deviations of the first m steps: 1/7 for every step from |p| - 3 on. */
  lemma {:induction false} ClosedSelfDiffSum(p: seq<SmartPoint>, dist: Distance, m: nat)
    requires ClosedNonDegenerate(p, dist) && m <= |p|
    ensures DiffSum(p, p, dist, 0, m) == (if m + 3 <= |p| then 0.0 else (m + 3 - |p|) as real / 7.0)
  {
    hide StripRatio, Inverted, CompareRatio, Products, Sum, Baricenter, Aligned, AlignedDeviation, Slot,
      ClosedNonDegenerate;
    if m > 0 {
      ClosedSelfDiffSum(p, dist, m - 1);
      ClosedSelfStep(p, dist, m - 1);
    }
  }

  /** Step i of that walk adds vertex i to the outliers exactly when it is
      vertex |p| - 3 or |p| - 2. */
  lemma ClosedOutlierStep(p: seq<SmartPoint>, dist: Distance, i: nat)
    requires ClosedNonDegenerate(p, dist) && i < |p|
    ensures Outliers(p, p, dist, 0, 0.0, i + 1)
         == Outliers(p, p, dist, 0, 0.0, i) + (if i + 3 == |p| || i + 2 == |p| then [p[i]] else [])
  {
    hide StripRatio, Inverted, CompareRatio, Products, Sum, Baricenter, Aligned, AlignedDeviation, Slot,
      IsOutlier, ClosedNonDegenerate;
    ClosedSelfStep(p, dist, i);
    ModUnique(i + 0, 0, i, |p|);
  }

  /** The outliers of the first m steps: vertices |p| - 3 and |p| - 2, once
      the walk has passed them. */
  lemma {:induction false} ClosedSelfOutliers(p: seq<SmartPoint>, dist: Distance, m: nat)
    requires ClosedNonDegenerate(p, dist) && m <= |p|
    ensures m + 3 <= |p| ==> Outliers(p, p, dist, 0, 0.0, m) == []
    ensures m + 2 == |p| ==> Outliers(p, p, dist, 0, 0.0, m) == [p[|p| - 3]]
    ensures m + 1 >= |p| ==> Outliers(p, p, dist, 0, 0.0, m) == [p[|p| - 3], p[|p| - 2]]
  {
    hide StripRatio, Inverted, CompareRatio, Products, Sum, Baricenter, Aligned, AlignedDeviation, Slot,
      IsOutlier, Outliers, ClosedNonDegenerate;
    if m > 0 {
      var n := |p|;
      ClosedSelfOutliers(p, dist, m - 1);
      ClosedOutlierStep(p, dist, m - 1);
      if m + 2 == n {
        assert [] + [p[n - 3]] == [p[n - 3]];
      } else if m + 1 == n {
        assert [p[n - 3]] + [p[n - 2]] == [p[n - 3], p[n - 2]];
      }
    }
  }

  /** For a closed hull against itself, start 0 matches exactly and is kept. */
  lemma ClosedSelfBest(p: seq<SmartPoint>, dist: Distance)
    requires ClosedNonDegenerate(p, dist)
    ensures Raw(p, p, dist, 0) == 1.0
    ensures BestIndex(p, p, dist, |p|) == 0
  {
    hide StripRatio, Inverted, CompareRatio, Products, Sum, Baricenter, Slot, ClosedNonDegenerate;
    forall k | 0 <= k < MinEdgeRatioToCompare
      ensures StripRatio(p, 0, Baricenter(p), dist)[k] != 0.0
    {
      ClosedSlot(p, dist, 0, k);
    }
    SelfRatio(p, dist, 0);
    assert Deviation(p, p, dist, 0) == 0.0;
    var b := BestIndex(p, p, dist, |p|);
    assert Deviation(p, p, dist, b) <= Deviation(p, p, dist, 0);
  }

  /** A closed hull compared with itself: the best alignment is vertex 0
      and the scale is 2, but the three steps that reach the zero-length
      closing edge deviate by 1/7 each, so the similarity is
      1 - 3/(7 |p|), and two of those steps report their vertex as an
      outlier. */
  lemma CompareClosedHullSelf(p: seq<SmartPoint>, dist: Distance)
    requires ClosedNonDegenerate(p, dist)
    ensures CompareHullsSpec(p, p, dist)
         == Comparison(1.0 - 3.0 / (7.0 * (|p| as real)), 2.0, [p[|p| - 3], p[|p| - 2]])
  {
    hide StripRatio, Inverted, CompareRatio, Products, Sum, Baricenter, Slot, DiffSum, Outliers, Raw, BestIndex,
      ClosedNonDegenerate;
    ClosedSelfBest(p, dist);
    ClosedSelfDiffSum(p, dist, |p|);
    ClosedSelfOutliers(p, dist, |p|);
    var n := |p| as real;
    assert (3.0 / 7.0) / n == 3.0 / (7.0 * n);
  }

  /** The hull grahamScan builds for the square (0,0),(4,0),(4,4),(0,4)
      is closed and otherwise non-degenerate under a distance that is 0
      exactly between equal points; its mass centre is (7/5, 7/5). */
  lemma ClosedSquare(dist: Distance)
    requires forall a: Point, b: Point :: dist(a, b) == 0.0 <==> a == b
    ensures Baricenter([HullBuilder.Sp(0.0, 0.0), HullBuilder.Sp(4.0, 0.0), HullBuilder.Sp(4.0, 4.0),
                        HullBuilder.Sp(0.0, 4.0), HullBuilder.Sp(0.0, 0.0)]) == Point(1.4, 1.4)
    ensures ClosedNonDegenerate([HullBuilder.Sp(0.0, 0.0), HullBuilder.Sp(4.0, 0.0), HullBuilder.Sp(4.0, 4.0),
                                 HullBuilder.Sp(0.0, 4.0), HullBuilder.Sp(0.0, 0.0)], dist)
  {
    var h := [HullBuilder.Sp(0.0, 0.0), HullBuilder.Sp(4.0, 0.0), HullBuilder.Sp(4.0, 4.0),
              HullBuilder.Sp(0.0, 4.0), HullBuilder.Sp(0.0, 0.0)];
    assert SumX(h, 5) == 8.0 && SumY(h, 5) == 8.0;
    assert Baricenter(h) == Point(1.4, 1.4);
  }

  /** The square through grahamScan, compared with itself: the similarity
      is 32/35 rather than 1, and (4,4) and (0,4) are reported as
      outliers. */
  lemma SquareHullSelf(dist: Distance)
    requires forall a: Point, b: Point :: dist(a, b) == 0.0 <==> a == b
    ensures var h := HullBuilder.ConvexHullOf([HullBuilder.Sp(0.0, 0.0), HullBuilder.Sp(4.0, 0.0),
                                               HullBuilder.Sp(4.0, 4.0), HullBuilder.Sp(0.0, 4.0)]);
            CompareHullsSpec(h, h, dist) == Comparison(32.0 / 35.0, 2.0, [HullBuilder.Sp(4.0, 4.0), HullBuilder.Sp(0.0, 4.0)])
  {
    hide CompareHullsSpec, ClosedNonDegenerate, HullBuilder.ConvexHullOf;
    var h := [HullBuilder.Sp(0.0, 0.0), HullBuilder.Sp(4.0, 0.0), HullBuilder.Sp(4.0, 4.0),
              HullBuilder.Sp(0.0, 4.0), HullBuilder.Sp(0.0, 0.0)];
    HullBuilder.SquareHull();
    ClosedSquare(dist);
    CompareClosedHullSelf(h, dist);
    assert 1.0 - 3.0 / (7.0 * 5.0) == 32.0 / 35.0;
  }

  /* ---------------- the collinear hull ---------------- */

  /** The Manhattan distance: one distance that is 0 exactly between equal
      points. */
  function Manhattan(a: Point, b: Point): NonNeg
  {
    Abs(a.x - b.x) + Abs(a.y - b.y)
  }

  /** The hull grahamScan builds from (0,0), (1,0), (2,0). It has three
      points, too few for ClosedNonDegenerate. */
  const FlatHull: seq<SmartPoint> := [HullBuilder.Sp(0.0, 0.0), HullBuilder.Sp(2.0, 0.0), HullBuilder.Sp(0.0, 0.0)]

  /** Its descriptors under the Manhattan distance from starts 0, 1 and 2:
      the vertices lie 2/3, 2 and 2/3 from the shifted centre (1/3, -1/3),
      and the cyclic edges are 2, 2 and 0 long, so every descriptor has a
      zero slot. */
  const FlatRatio0: seq<real> := [2.0 / 3.0, 2.0, 2.0, 2.0, 2.0 / 3.0, 0.0, 2.0 / 3.0]
  const FlatRatio1: seq<real> := [2.0, 2.0, 2.0 / 3.0, 0.0, 2.0 / 3.0, 2.0, 2.0]
  const FlatRatio2: seq<real> := [2.0 / 3.0, 0.0, 2.0 / 3.0, 2.0, 2.0, 2.0, 2.0 / 3.0]

  lemma FlatCentre()
    ensures Baricenter(FlatHull) == Point(1.0 / 3.0, -1.0 / 3.0)
  {
    assert SumX(FlatHull, 3) == 2.0 && SumY(FlatHull, 3) == 0.0;
  }

  /** Its vertices lie 2/3, 2 and 2/3 from the centre, and its cyclic
      edges are 2, 2 and 0 long. */
  lemma FlatVertex(v: nat)
    requires v < 3
    ensures Manhattan(FlatHull[v].coord, Point(1.0 / 3.0, -1.0 / 3.0)) == [2.0 / 3.0, 2.0, 2.0 / 3.0][v]
    ensures EdgeLength(FlatHull, Manhattan, v) == [2.0, 2.0, 0.0][v]
  {
    if v == 0 {
    } else if v == 1 {
    } else {
      assert (v + 1) % |FlatHull| == 0;
    }
  }

  /** One slot of the descriptor from start s: a vertex's distance to the
      centre, or the cyclic edge from that vertex. */
  lemma FlatSlot(s: nat, k: nat)
    requires s < 5 && k < MinEdgeRatioToCompare
    ensures Slot(FlatHull, s, Point(1.0 / 3.0, -1.0 / 3.0), Manhattan, k)
         == (if k % 2 == 0 then [2.0 / 3.0, 2.0, 2.0 / 3.0] else [2.0, 2.0, 0.0])[(s + k / 2) % 3]
  {
    hide Manhattan, EdgeLength, Slot;
    SlotIsEdge(FlatHull, s, Point(1.0 / 3.0, -1.0 / 3.0), Manhattan, k);
    FlatVertex((s + k / 2) % 3);
  }

  /** The descriptor from start s, for the starts the comparison reads. */
  lemma FlatRatio(s: nat)
    requires s < 5
    ensures StripRatio(FlatHull, s, Baricenter(FlatHull), Manhattan) == [FlatRatio0, FlatRatio1, FlatRatio2][s % 3]
  {
    FlatCentre();
    hide Slot, Baricenter;
    var r := [FlatRatio0, FlatRatio1, FlatRatio2][s % 3];
    forall k | 0 <= k < MinEdgeRatioToCompare
      ensures Slot(FlatHull, s, Point(1.0 / 3.0, -1.0 / 3.0), Manhattan, k) == r[k]
    {
      FlatSlot(s, k);
    }
  }

  /** The mean of seven slot products, written out. */
  lemma CompareSeven(a: seq<real>, b: seq<real>)
    requires |a| == |b| == MinEdgeRatioToCompare
    ensures CompareRatio(a, b)
         == (a[0] * b[0] + a[1] * b[1] + a[2] * b[2] + a[3] * b[3] + a[4] * b[4] + a[5] * b[5] + a[6] * b[6]) / 7.0
  {
    var r := Products(a, b);
    assert r[..7] == r;
    SumPrefixStep(r, 6); SumPrefixStep(r, 5); SumPrefixStep(r, 4); SumPrefixStep(r, 3);
    SumPrefixStep(r, 2); SumPrefixStep(r, 1); SumPrefixStep(r, 0);
    assert r[..0] == [];
  }

  /** The inverted start-0 descriptor against starts 0, 1 and 2. */
  lemma FlatRaw()
    ensures Raw(FlatHull, FlatHull, Manhattan, 0) == 6.0 / 7.0
    ensures Raw(FlatHull, FlatHull, Manhattan, 1) == 25.0 / 21.0
    ensures Raw(FlatHull, FlatHull, Manhattan, 2) == 19.0 / 21.0
  {
    hide StripRatio, CompareRatio, Baricenter;
    FlatRatio(0); FlatRatio(1); FlatRatio(2);
    var a := Inverted(FlatRatio0);
    assert a == [3.0 / 2.0, 1.0 / 2.0, 1.0 / 2.0, 1.0 / 2.0, 3.0 / 2.0, 0.0, 3.0 / 2.0];
    CompareSeven(a, FlatRatio0); CompareSeven(a, FlatRatio1); CompareSeven(a, FlatRatio2);
  }

  /** The first loop keeps start 2, the one of least deviation (2/21). */
  lemma FlatBest()
    ensures BestIndex(FlatHull, FlatHull, Manhattan, 3) == 2
    ensures Deviation(FlatHull, FlatHull, Manhattan, 2) == 2.0 / 21.0
  {
    hide Raw;
    FlatRaw();
  }

  /** Walk step i from start 2 pairs the inverted descriptor from i with
      the descriptor from i + 2. */
  lemma FlatStep(i: nat)
    requires i < 3
    ensures Aligned(FlatHull, FlatHull, Manhattan, 2, i)
         == Products(Inverted([FlatRatio0, FlatRatio1, FlatRatio2][i]), [FlatRatio0, FlatRatio1, FlatRatio2][(i + 2) % 3])
  {
    hide StripRatio, Baricenter;
    FlatRatio(i);
    FlatRatio(i + 2);
  }

  /** Walk step i from start 2 deviates by 2/21, 4/21 and 4/21, and its
      slot-1 product is 0, 1 and 0. */
  lemma FlatWalkStep(i: nat)
    requires i < 3
    ensures AlignedDeviation(FlatHull, FlatHull, Manhattan, 2, i) == [2.0 / 21.0, 4.0 / 21.0, 4.0 / 21.0][i]
    ensures Aligned(FlatHull, FlatHull, Manhattan, 2, i)[1] == [0.0, 1.0, 0.0][i]
  {
    hide StripRatio, Baricenter, Aligned;
    FlatStep(i);
    var a := Inverted([FlatRatio0, FlatRatio1, FlatRatio2][i]);
    var b := [FlatRatio0, FlatRatio1, FlatRatio2][(i + 2) % 3];
    if i == 0 {
      assert a == [3.0 / 2.0, 1.0 / 2.0, 1.0 / 2.0, 1.0 / 2.0, 3.0 / 2.0, 0.0, 3.0 / 2.0];
    } else if i == 1 {
      assert a == [1.0 / 2.0, 1.0 / 2.0, 3.0 / 2.0, 0.0, 3.0 / 2.0, 1.0 / 2.0, 1.0 / 2.0];
    } else {
      assert a == [3.0 / 2.0, 0.0, 3.0 / 2.0, 1.0 / 2.0, 1.0 / 2.0, 1.0 / 2.0, 3.0 / 2.0];
    }
    CompareSeven(a, b);
  }

  /** The whole walk from start 2. */
  lemma FlatWalk()
    ensures AlignedDeviation(FlatHull, FlatHull, Manhattan, 2, 0) == 2.0 / 21.0
    ensures AlignedDeviation(FlatHull, FlatHull, Manhattan, 2, 1) == 4.0 / 21.0
    ensures AlignedDeviation(FlatHull, FlatHull, Manhattan, 2, 2) == 4.0 / 21.0
    ensures Aligned(FlatHull, FlatHull, Manhattan, 2, 0)[1] == 0.0
    ensures Aligned(FlatHull, FlatHull, Manhattan, 2, 1)[1] == 1.0
    ensures Aligned(FlatHull, FlatHull, Manhattan, 2, 2)[1] == 0.0
  {
    hide Aligned, AlignedDeviation;
    FlatWalkStep(0); FlatWalkStep(1); FlatWalkStep(2);
  }

  /** The collinear input through grahamScan, compared with itself under
      the Manhattan distance: start 2 is kept, so the scale is 40/21, the
      similarity 53/63, and (0,0) and (2,0) are reported as outliers. */
  lemma FlatHullSelf()
    ensures var h := HullBuilder.ConvexHullOf([HullBuilder.Sp(0.0, 0.0), HullBuilder.Sp(1.0, 0.0), HullBuilder.Sp(2.0, 0.0)]);
            CompareHullsSpec(h, h, Manhattan) == Comparison(53.0 / 63.0, 40.0 / 21.0, [HullBuilder.Sp(0.0, 0.0), HullBuilder.Sp(2.0, 0.0)])
  {
    hide HullBuilder.ConvexHullOf, BestIndex, Raw, Deviation, AlignedDeviation, Aligned;
    HullBuilder.CollinearHull();
    FlatRaw();
    FlatBest();
    FlatWalk();
    var best := 2.0 / 21.0;
    assert DiffSum(FlatHull, FlatHull, Manhattan, 2, 3) == 10.0 / 21.0;
    assert !IsOutlier(FlatHull, FlatHull, Manhattan, 2, best, 0);
    assert IsOutlier(FlatHull, FlatHull, Manhattan, 2, best, 1);
    assert IsOutlier(FlatHull, FlatHull, Manhattan, 2, best, 2);
    assert Outliers(FlatHull, FlatHull, Manhattan, 2, best, 3) == [FlatHull[0], FlatHull[1]];
  }
}

=== FILE: containment.dfy ===
/** The containment classifier: a horizontal ray-crossing parity test over
    the edges of a hull, and the two filters built on it. Vertex hits and
    on-edge crossings are detected by exact equality, and both end the
    scan early. */
module Containment {
  import opened Geometry

  /** One end of the edge lies strictly below the query height and the
      other at or above it. */
  predicate Straddles(y1: real, y2: real, py: real)
  {
    (y1 < py && y2 >= py) || (y1 >= py && y2 < py)
  }

  /** The x at which the line through p1 and p2 meets the height py. */
  function CrossX(p1: Point, p2: Point, py: real): real
    requires p1.y != p2.y
  {
    (py - p1.y) * (p2.x - p1.x) / (p2.y - p1.y) + p1.x
  }

  /** A straddling edge is never horizontal, so the division in CrossX is
      always defined where the scan performs it; and the crossing it
      computes lies on the edge: on the line through its ends and between
      their x coordinates. */
  lemma CrossXOnEdge(p1: Point, p2: Point, py: real)
    requires Straddles(p1.y, p2.y, py)
    ensures p1.y != p2.y
    ensures (CrossX(p1, p2, py) - p1.x) * (p2.y - p1.y) == (py - p1.y) * (p2.x - p1.x)
    ensures p1.x <= p2.x ==> p1.x <= CrossX(p1, p2, py) <= p2.x
    ensures p2.x <= p1.x ==> p2.x <= CrossX(p1, p2, py) <= p1.x
  {
    var num, den, dx := py - p1.y, p2.y - p1.y, p2.x - p1.x;
    var t := num / den;
    assert 0.0 <= t <= 1.0 by {
      if p1.y < py {
        assert 0.0 < num <= den;
      } else {
        assert den < num <= 0.0;
        assert t == (-num) / (-den);
      }
    }
    assert t * den == num;
    assert CrossX(p1, p2, py) - p1.x == num * dx / den;
    assert num * dx / den == t * dx;
    hide CrossX;
    ScaledBetween(t, dx);
  }

  /** Scaling by a factor in [0, 1] keeps a value between 0 and itself. */
  lemma ScaledBetween(t: real, d: real)
    requires 0.0 <= t <= 1.0
    ensures 0.0 <= d ==> 0.0 <= t * d <= d
    ensures d <= 0.0 ==> d <= t * d <= 0.0
  {
    assert d - t * d == (1.0 - t) * d;
  }

  /** The edge examined at loop index i joins hull[i] and hull[j], where j is
      the previous index, cyclically. */
  function Prev(n: nat, i: nat): (j: nat)
    requires i < n
    ensures j < n
  {
    if i == 0 then n - 1 else i - 1
  }

  predicate VertexHit(pt: Point, hull: seq<SmartPoint>, i: nat)
    requires i < |hull|
  {
    hull[i].coord == pt || hull[Prev(|hull|, i)].coord == pt
  }

  predicate EdgeStraddles(pt: Point, hull: seq<SmartPoint>, i: nat)
    requires i < |hull|
  {
    Straddles(hull[i].coord.y, hull[Prev(|hull|, i)].coord.y, pt.y)
  }

  function EdgeCrossX(pt: Point, hull: seq<SmartPoint>, i: nat): real
    requires i < |hull| && EdgeStraddles(pt, hull, i)
  {
    CrossX(hull[i].coord, hull[Prev(|hull|, i)].coord, pt.y)
  }

  /** Edge i makes the loop stop: it has an end equal to the point, or its
      crossing lands exactly on the point's x. */
  predicate Stops(pt: Point, hull: seq<SmartPoint>, i: nat)
    requires i < |hull|
  {
    VertexHit(pt, hull, i) || (EdgeStraddles(pt, hull, i) && EdgeCrossX(pt, hull, i) == pt.x)
  }

  /** Edge i toggles the parity: it straddles the point's height and its
      crossing lies strictly to the right of the point. */
  predicate Toggles(pt: Point, hull: seq<SmartPoint>, i: nat)
    requires i < |hull|
  {
    EdgeStraddles(pt, hull, i) && EdgeCrossX(pt, hull, i) > pt.x
  }

  /** The loop of `contains` resumed at edge i with parity `inside`. */
  function ScanFrom(pt: Point, hull: seq<SmartPoint>, i: nat, inside: bool): bool
    requires i <= |hull|
    decreases |hull| - i
  {
    if i == |hull| then inside
    else if VertexHit(pt, hull, i) then false
    else if EdgeStraddles(pt, hull, i) && EdgeCrossX(pt, hull, i) == pt.x then inside
    else ScanFrom(pt, hull, i + 1, if Toggles(pt, hull, i) then !inside else inside)
  }

  /** What `contains` answers for a point and a hull. */
  function ContainsSpec(pt: Point, hull: seq<SmartPoint>): bool
  {
    if |hull| < 3 then false else ScanFrom(pt, hull, 0, false)
  }

  /** The number of toggling edges among the edges lo .. hi - 1. */
  function CountToggles(pt: Point, hull: seq<SmartPoint>, lo: nat, hi: nat): nat
    requires lo <= hi <= |hull|
    decreases hi - lo
  {
    if lo == hi then 0
    else (if Toggles(pt, hull, lo) then 1 else 0) + CountToggles(pt, hull, lo + 1, hi)
  }

  function Odd(n: nat): bool { n % 2 == 1 }

  /** Scanning a run of edges none of which stops flips the parity once
      per toggling edge. */
  lemma {:induction false} ScanRun(pt: Point, hull: seq<SmartPoint>, lo: nat, hi: nat, inside: bool)
    requires lo <= hi <= |hull|
    requires forall k :: lo <= k < hi ==> !Stops(pt, hull, k)
    ensures ScanFrom(pt, hull, lo, inside) == ScanFrom(pt, hull, hi, inside != Odd(CountToggles(pt, hull, lo, hi)))
    decreases hi - lo
  {
    if lo < hi {
      assert !Stops(pt, hull, lo);
      var next := if Toggles(pt, hull, lo) then !inside else inside;
      ScanRun(pt, hull, lo + 1, hi, next);
    }
  }

  /** Without an early stop, the verdict is the parity of the number of
      edges that straddle the point's height and cross strictly to its
      right. */
  lemma ContainsIsParity(pt: Point, hull: seq<SmartPoint>)
    requires |hull| >= 3
    requires forall k :: 0 <= k < |hull| ==> !Stops(pt, hull, k)
    ensures ContainsSpec(pt, hull) == Odd(CountToggles(pt, hull, 0, |hull|))
  {
    ScanRun(pt, hull, 0, |hull|, false);
  }

  /** At the first edge that stops the loop, the verdict is false if that
      edge has an end equal to the point, and otherwise (the crossing lands
      exactly on the point) the parity accumulated over the edges before
      it. */
  lemma ContainsFirstStop(pt: Point, hull: seq<SmartPoint>, k: nat)
    requires |hull| >= 3 && k < |hull|
    requires forall m :: 0 <= m < k ==> !Stops(pt, hull, m)
    requires Stops(pt, hull, k)
    ensures ContainsSpec(pt, hull) == (!VertexHit(pt, hull, k) && Odd(CountToggles(pt, hull, 0, k)))
  {
    ScanRun(pt, hull, 0, k, false);
  }

  /** Fewer than three vertices: never inside. A point equal to the first
      or the last vertex: never inside, since the first edge examined joins
      exactly those two. */
  lemma ContainsDegenerate(pt: Point, hull: seq<SmartPoint>)
    ensures |hull| < 3 ==> !ContainsSpec(pt, hull)
    ensures |hull| > 0 && (hull[0].coord == pt || hull[|hull| - 1].coord == pt) ==> !ContainsSpec(pt, hull)
  {
  }

  /** A horizontal edge with no end on the point leaves the scan as it
      was: it neither stops it nor flips the parity. */
  lemma HorizontalEdgeIgnored(pt: Point, hull: seq<SmartPoint>, i: nat, inside: bool)
    requires i < |hull| && hull[i].coord.y == hull[Prev(|hull|, i)].coord.y
    requires !VertexHit(pt, hull, i)
    ensures !Stops(pt, hull, i) && !Toggles(pt, hull, i)
    ensures ScanFrom(pt, hull, i, inside) == ScanFrom(pt, hull, i + 1, inside)
  {
  }

  /** `contains`: walks the edges (hull[i], hull[j]) with j the previous
      index, toggles the parity on each crossing to the right of the point,
      and breaks out on a vertex hit or an exact on-edge crossing. */
  method Contains(pt: Point, hull: seq<SmartPoint>) returns (inside: bool)
    ensures inside == ContainsSpec(pt, hull)
    ensures |hull| < 3 ==> !inside
  {
    hide CrossX;
    inside := false;
    var size := |hull|;
    if size < 3 {
      return;
    }
    var i, j := 0, size - 1;
    while i < size
      invariant 0 <= i <= size
      invariant i < size ==> j == Prev(size, i)
      invariant ScanFrom(pt, hull, i, inside) == ContainsSpec(pt, hull)
    {
      var x1, y1 := hull[i].coord.x, hull[i].coord.y;
      var x2, y2 := hull[j].coord.x, hull[j].coord.y;
      if (x1 == pt.x && y1 == pt.y) || (x2 == pt.x && y2 == pt.y) {
        inside := false;
        break;
      }
      if (y1 < pt.y && y2 >= pt.y) || (y1 >= pt.y && y2 < pt.y) {
        var crossX := CrossX(hull[i].coord, hull[j].coord, pt.y);
        if crossX == pt.x {
          break;
        }
        if crossX > pt.x {
          inside := !inside;
        }
      }
      j, i := i, i + 1;
    }
  }

  /* ---------------- the two filters ---------------- */

  /** Indices, in order, of the first n points of `stack` that lie inside
      the hull. */
  function InsideIndices(stack: seq<SmartPoint>, hull: seq<SmartPoint>, n: nat): (r: seq<nat>)
    requires n <= |stack|
    ensures |r| <= n
  {
    if n == 0 then []
    else InsideIndices(stack, hull, n - 1) + (if ContainsSpec(stack[n - 1].coord, hull) then [n - 1] else [])
  }

  /** Every index InsideIndices picks is below n and names a point that
      `contains` accepts. */
  lemma {:induction false} InsideIndicesSound(stack: seq<SmartPoint>, hull: seq<SmartPoint>, n: nat)
    requires n <= |stack|
    ensures forall k :: 0 <= k < |InsideIndices(stack, hull, n)| ==> InsideIndices(stack, hull, n)[k] < n
    ensures forall k :: 0 <= k < |InsideIndices(stack, hull, n)| ==>
              ContainsSpec(stack[InsideIndices(stack, hull, n)[k]].coord, hull)
  {
    hide CrossX;
    if n > 0 {
      InsideIndicesSound(stack, hull, n - 1);
      var prev := InsideIndices(stack, hull, n - 1);
      var r := InsideIndices(stack, hull, n);
      var picked := ContainsSpec(stack[n - 1].coord, hull);
      assert r == prev + (if picked then [n - 1] else []);
      forall k | 0 <= k < |r|
        ensures r[k] < n && ContainsSpec(stack[r[k]].coord, hull)
      {
        if k < |prev| {
          assert r[k] == prev[k];
        } else {
          assert picked && r[k] == n - 1;
        }
      }
    }
  }

  /** The picked indices are strictly increasing, so each point is picked
      at most once and in the order of `stack`. */
  lemma {:induction false} InsideIndicesIncreasing(stack: seq<SmartPoint>, hull: seq<SmartPoint>, n: nat)
    requires n <= |stack|
    ensures forall k, l :: 0 <= k < l < |InsideIndices(stack, hull, n)| ==>
              InsideIndices(stack, hull, n)[k] < InsideIndices(stack, hull, n)[l]
  {
    hide ContainsSpec;
    if n > 0 {
      InsideIndicesIncreasing(stack, hull, n - 1);
      InsideIndicesSound(stack, hull, n - 1);
      var prev := InsideIndices(stack, hull, n - 1);
      var r := InsideIndices(stack, hull, n);
      assert forall k :: 0 <= k < |prev| ==> r[k] == prev[k];
    }
  }

  /** Every point among the first n that `contains` accepts is picked. */
  lemma {:induction false} InsideIndicesComplete(stack: seq<SmartPoint>, hull: seq<SmartPoint>, n: nat)
    requires n <= |stack|
    ensures forall m :: 0 <= m < n && ContainsSpec(stack[m].coord, hull) ==> m in InsideIndices(stack, hull, n)
  {
    hide ContainsSpec;
    if n > 0 {
      InsideIndicesComplete(stack, hull, n - 1);
      var prev := InsideIndices(stack, hull, n - 1);
      var r := InsideIndices(stack, hull, n);
      forall m | 0 <= m < n && ContainsSpec(stack[m].coord, hull)
        ensures m in r
      {
        if m < n - 1 {
          var k :| 0 <= k < |prev| && prev[k] == m;
          assert r[k] == m;
        } else {
          assert r[|r| - 1] == m;
        }
      }
    }
  }

  /** The points of s at the given indices, in that order. */
  function Pick(s: seq<SmartPoint>, idx: seq<nat>): (r: seq<SmartPoint>)
    requires forall k :: 0 <= k < |idx| ==> idx[k] < |s|
    ensures |r| == |idx|
  {
    seq(|idx|, k requires 0 <= k < |idx| => s[idx[k]])
  }

  /** pointInsidePolygon, first form: the positions in `stack` of the points
      inside the hull. Positions stand for the pointers the C++ class hands
      back into the caller's storage. */
  method PointInsidePolygonRefs(stack: seq<SmartPoint>, hull: seq<SmartPoint>) returns (refs: seq<nat>)
    ensures refs == InsideIndices(stack, hull, |stack|)
    ensures forall k :: 0 <= k < |refs| ==> refs[k] < |stack| && ContainsSpec(stack[refs[k]].coord, hull)
  {
    refs := [];
    for n := 0 to |stack|
      invariant refs == InsideIndices(stack, hull, n)
    {
      var inside := Contains(stack[n].coord, hull);
      if inside {
        refs := refs + [n];
      }
    }
    InsideIndicesSound(stack, hull, |stack|);
  }

  /** The first n points of `stack` that lie inside the hull, in order. */
  function InsidePoints(stack: seq<SmartPoint>, hull: seq<SmartPoint>, n: nat): (r: seq<SmartPoint>)
    requires n <= |stack|
    ensures |r| <= n
  {
    if n == 0 then []
    else InsidePoints(stack, hull, n - 1) + (if ContainsSpec(stack[n - 1].coord, hull) then [stack[n - 1]] else [])
  }

  /** The two forms agree: the copies appended by the second form are the
      points at the positions returned by the first. */
  lemma {:induction false} FormsAgree(stack: seq<SmartPoint>, hull: seq<SmartPoint>, n: nat)
    requires n <= |stack|
    ensures forall k :: 0 <= k < |InsideIndices(stack, hull, n)| ==> InsideIndices(stack, hull, n)[k] < |stack|
    ensures InsidePoints(stack, hull, n) == Pick(stack, InsideIndices(stack, hull, n))
  {
    InsideIndicesSound(stack, hull, n);
    if n > 0 {
      FormsAgree(stack, hull, n - 1);
    }
  }

  /** pointInsidePolygon, second form: appends a copy of every point inside
      the hull to the caller's output, in `stack` order; what the output
      held before is kept. */
  method PointInsidePolygonCopy(stack: seq<SmartPoint>, hull: seq<SmartPoint>, pointsObject: seq<SmartPoint>)
    returns (out: seq<SmartPoint>)
    ensures out == pointsObject + InsidePoints(stack, hull, |stack|)
    ensures out[..|pointsObject|] == pointsObject
    ensures forall k :: |pointsObject| <= k < |out| ==> out[k] in stack && ContainsSpec(out[k].coord, hull)
  {
    out := pointsObject;
    for n := 0 to |stack|
      invariant out == pointsObject + InsidePoints(stack, hull, n)
    {
      var inside := Contains(stack[n].coord, hull);
      if inside {
        out := out + [stack[n]];
      }
    }
    FormsAgree(stack, hull, |stack|);
    InsideIndicesSound(stack, hull, |stack|);
  }

  /* ---------------- worked examples ---------------- */

  const Square := [SmartPoint(Point(0.0, 0.0)), SmartPoint(Point(4.0, 0.0)),
                   SmartPoint(Point(4.0, 4.0)), SmartPoint(Point(0.0, 4.0))]

  /** On the square (0,0),(4,0),(4,4),(0,4): the centre is inside. */
  lemma SquareCentreInside()
    ensures ContainsSpec(Point(2.0, 2.0), Square)
  {
    var c := Point(2.0, 2.0);
    SquareCentreEdges();
    hide CrossX;
    ContainsIsParity(c, Square);
    assert Toggles(c, Square, 2) && !Toggles(c, Square, 3);
    assert CountToggles(c, Square, 3, 4) == 0;
    assert CountToggles(c, Square, 2, 4) == 1;
  }

  /** Seen from the centre of the square, only the right edge (from (4,4)
      down to (4,0)) crosses to the right; the left edge crosses at x = 0. */
  lemma SquareCentreEdges()
    ensures forall k :: 0 <= k < 4 ==> !Stops(Point(2.0, 2.0), Square, k)
    ensures forall k :: 0 <= k < 4 ==> (Toggles(Point(2.0, 2.0), Square, k) <==> k == 2)
  {
    var c := Point(2.0, 2.0);
    SquareLeftCrossing();
    SquareRightCrossing();
    hide CrossX;
    assert Square[Prev(4, 0)].coord == Point(0.0, 4.0);
    assert Square[Prev(4, 2)].coord == Point(4.0, 0.0);
    forall k | 0 <= k < 4
      ensures !Stops(c, Square, k) && (Toggles(c, Square, k) <==> k == 2)
    {
      if k == 0 {
        assert EdgeCrossX(c, Square, 0) == CrossX(Point(0.0, 0.0), Point(0.0, 4.0), 2.0);
      } else if k == 2 {
        assert EdgeCrossX(c, Square, 2) == CrossX(Point(4.0, 4.0), Point(4.0, 0.0), 2.0);
      } else {
        assert !EdgeStraddles(c, Square, k);
      }
    }
  }

  lemma SquareLeftCrossing()
    ensures CrossX(Point(0.0, 0.0), Point(0.0, 4.0), 2.0) == 0.0
  {
  }

  lemma SquareRightCrossing()
    ensures CrossX(Point(4.0, 4.0), Point(4.0, 0.0), 2.0) == 4.0
  {
  }

  /** On the same square a point beyond a corner is outside, and so is a
      corner itself. */
  lemma SquareOutside()
    ensures !ContainsSpec(Point(5.0, 5.0), Square)
    ensures !ContainsSpec(Point(0.0, 0.0), Square)
  {
    var p := Point(5.0, 5.0);
    forall k | 0 <= k < 4
      ensures !Stops(p, Square, k) && !Toggles(p, Square, k)
    {
    }
    ContainsIsParity(p, Square);
    assert CountToggles(p, Square, 0, 4) == 0;
  }
}

=== FILE: descriptor.dfy ===
/** The triangle-strip descriptor of a polygon: starting at a vertex, the
    distances from three consecutive vertices and the one after them to
    the mass centre, interleaved with the lengths of the three edges
    between them. Two descriptors are compared slot by slot; with the
    first one inverted, the comparison measures the scale between them. */
module Descriptor {
  import opened Geometry

  const MinTrianglesToCompare: nat := 3
  const MinEdgesToCompare: nat := MinTrianglesToCompare + 1
  const MinEdgeRatioToCompare: nat := MinTrianglesToCompare * 2 + 1
  const MinEdgeRatioToCompareInverse: real := 1.0 / (MinEdgeRatioToCompare as real)

  /* ---------------- modular index arithmetic ---------------- */

  /** Adding a multiple of n does not change a remainder. */
  lemma {:induction false} ModAddMultiple(x: nat, q: nat, n: nat)
    requires n > 0
    ensures (x + q * n) % n == x % n
  {
    if q > 0 {
      ModAddMultiple(x, q - 1, n);
      assert x + q * n == (x + (q - 1) * n) + n;
      ModAddN(x + (q - 1) * n, n);
    }
  }

  lemma ModAddN(y: nat, n: nat)
    requires n > 0
    ensures (y + n) % n == y % n
  {
    ModUnique(y + n, y / n + 1, y % n, n);
  }

  /** Quotient and remainder are unique. */
  lemma ModUnique(x: int, q: int, r: int, n: int)
    requires n > 0 && 0 <= r < n && x == q * n + r
    ensures x % n == r
  {
    var q', r' := x / n, x % n;
    assert (q - q') * n == r' - r;
    assert (q' - q) * n == r - r';
    if q' < q {
      MulAtLeast(q - q', n);
    } else if q < q' {
      MulAtLeast(q' - q, n);
    }
  }

  lemma MulAtLeast(a: int, n: int)
    requires a >= 1 && n > 0
    ensures a * n >= n
  {
    assert a * n == (a - 1) * n + n;
  }

  /** Reducing the left summand first does not change the remainder. */
  lemma ModAddReduce(a: nat, r: nat, n: nat)
    requires n > 0
    ensures (a % n + r) % n == (a + r) % n
  {
    var q := a / n;
    assert a == q * n + a % n;
    assert a + r == (a % n + r) + q * n;
    ModAddMultiple(a % n + r, q, n);
  }

  /* ---------------- the descriptor ---------------- */

  /** Slot k of the descriptor starting at vertex `start`: an even slot is
      the distance from vertex start + k/2 to the mass centre, an odd slot
      the length of the edge from that vertex to the next one. Vertex
      indices are taken modulo the number of vertices. */
  function Slot(p: seq<SmartPoint>, start: nat, c: Point, dist: Distance, k: nat): (r: real)
    requires |p| > 0
    ensures 0.0 <= r
  {
    var v := p[(start + k / 2) % |p|].coord;
    if k % 2 == 0 then dist(v, c) else dist(v, p[(start + k / 2 + 1) % |p|].coord)
  }

  /** The descriptor findTriangleStripRatio writes. */
  function StripRatio(p: seq<SmartPoint>, start: nat, c: Point, dist: Distance): (r: seq<real>)
    requires |p| >= MinTrianglesToCompare
    ensures |r| == MinEdgeRatioToCompare
    ensures forall k :: 0 <= k < |r| ==> 0.0 <= r[k]
  {
    seq(MinEdgeRatioToCompare, k requires 0 <= k => Slot(p, start, c, dist, k))
  }

  /** findTriangleStripRatio: fills the seven slots for a polygon of at
      least three vertices and leaves the array untouched otherwise. */
  method FindTriangleStripRatio(polygon: seq<SmartPoint>, startIdx: nat, massCenter: Point, dist: Distance,
                                ratioArray: array<real>)
    requires ratioArray.Length == MinEdgeRatioToCompare
    modifies ratioArray
    ensures |polygon| < MinTrianglesToCompare ==> ratioArray[..] == old(ratioArray[..])
    ensures |polygon| >= MinTrianglesToCompare ==> ratioArray[..] == StripRatio(polygon, startIdx, massCenter, dist)
  {
    var polygonSize := |polygon|;
    if polygonSize < MinTrianglesToCompare {
      return;
    }
    var i := 0;
    while i < MinTrianglesToCompare
      invariant 0 <= i <= MinTrianglesToCompare
      invariant forall k :: 0 <= k < 2 * i ==> ratioArray[k] == Slot(polygon, startIdx, massCenter, dist, k)
    {
      var idxCur := (startIdx + i) % polygonSize;
      var idxNext := (startIdx + i + 1) % polygonSize;
      ratioArray[2 * i] := dist(polygon[idxCur].coord, massCenter);
      ratioArray[2 * i + 1] := dist(polygon[idxCur].coord, polygon[idxNext].coord);
      assert (2 * i) / 2 == i && (2 * i + 1) / 2 == i && (2 * i + 1) % 2 == 1;
      i := i + 1;
    }
    ratioArray[2 * i] := dist(polygon[(startIdx + i) % polygonSize].coord, massCenter);
    assert (2 * i) / 2 == i;
    assert ratioArray[..] == StripRatio(polygon, startIdx, massCenter, dist);
  }

  /** The descriptor of a polygon whose vertices are rotated by r, read from
      `start`, is the descriptor of the unrotated polygon read from start + r: a
      change of starting vertex is all a rotation does. */
  lemma StripRatioRotate(p: seq<SmartPoint>, r: nat, start: nat, c: Point, dist: Distance)
    requires |p| >= MinTrianglesToCompare
    ensures StripRatio(Rotate(p, r), start, c, dist) == StripRatio(p, start + r, c, dist)
  {
    var q := Rotate(p, r);
    var n := |p|;
    forall k | 0 <= k < MinEdgeRatioToCompare
      ensures Slot(q, start, c, dist, k) == Slot(p, start + r, c, dist, k)
    {
      ModAddReduce(start + k / 2, r, n);
      ModAddReduce(start + k / 2 + 1, r, n);
      assert start + k / 2 + r == start + r + k / 2;
    }
  }

  /** The polygon p with its vertex list rotated left by r. */
  function Rotate(p: seq<SmartPoint>, r: nat): (q: seq<SmartPoint>)
    ensures |q| == |p|
  {
    seq(|p|, k requires 0 <= k < |p| => p[(k + r) % |p|])
  }

  /** Starting one full turn later gives the same descriptor. */
  lemma StripRatioPeriodic(p: seq<SmartPoint>, start: nat, c: Point, dist: Distance)
    requires |p| >= MinTrianglesToCompare
    ensures StripRatio(p, start + |p|, c, dist) == StripRatio(p, start, c, dist)
  {
    forall k | 0 <= k < MinEdgeRatioToCompare
      ensures Slot(p, start + |p|, c, dist, k) == Slot(p, start, c, dist, k)
    {
      ModAddN(start + k / 2, |p|);
      ModAddN(start + k / 2 + 1, |p|);
      assert start + |p| + k / 2 == start + k / 2 + |p|;
    }
  }

  /* ---------------- inversion ---------------- */

  /** Every non-zero slot replaced by its reciprocal; zero slots stay. */
  function Inverted(s: seq<real>): (r: seq<real>)
    ensures |r| == |s|
  {
    seq(|s|, k requires 0 <= k < |s| => if s[k] != 0.0 then 1.0 / s[k] else s[k])
  }

  /** Inversion is its own inverse and keeps slots non-negative and
      non-zero slots non-zero. */
  lemma InvertedInvolution(s: seq<real>)
    ensures Inverted(Inverted(s)) == s
    ensures forall k :: 0 <= k < |s| ==> (Inverted(s)[k] == 0.0 <==> s[k] == 0.0)
    ensures forall k :: 0 <= k < |s| ==> (0.0 <= Inverted(s)[k] <==> 0.0 <= s[k])
  {
    forall k | 0 <= k < |s|
      ensures Inverted(Inverted(s))[k] == s[k]
    {
      if s[k] != 0.0 {
        Reciprocal(s[k]);
      }
    }
  }

  lemma Reciprocal(x: real)
    requires x != 0.0
    ensures 1.0 / x != 0.0 && 1.0 / (1.0 / x) == x
    ensures 0.0 < x <==> 0.0 < 1.0 / x
  {
  }

  /** invertTriangleStripRatio: inverts every non-zero slot in place. */
  method InvertTriangleStripRatio(ratioArray: array<real>)
    modifies ratioArray
    ensures ratioArray[..] == Inverted(old(ratioArray[..]))
  {
    for k := 0 to ratioArray.Length
      invariant forall m :: 0 <= m < k ==> ratioArray[m] == Inverted(old(ratioArray[..]))[m]
      invariant forall m :: k <= m < ratioArray.Length ==> ratioArray[m] == old(ratioArray[m])
    {
      if ratioArray[k] != 0.0 {
        ratioArray[k] := 1.0 / ratioArray[k];
      }
    }
  }

  /** findTriangleStripRatio_inverse: the descriptor, then its inversion. */
  method FindTriangleStripRatioInverse(polygon: seq<SmartPoint>, startIdx: nat, massCenter: Point, dist: Distance,
                                       ratioArray: array<real>)
    requires ratioArray.Length == MinEdgeRatioToCompare
    modifies ratioArray
    ensures |polygon| < MinTrianglesToCompare ==> ratioArray[..] == Inverted(old(ratioArray[..]))
    ensures |polygon| >= MinTrianglesToCompare ==>
              ratioArray[..] == Inverted(StripRatio(polygon, startIdx, massCenter, dist))
  {
    FindTriangleStripRatio(polygon, startIdx, massCenter, dist, ratioArray);
    InvertTriangleStripRatio(ratioArray);
  }

  /* ---------------- comparison ---------------- */

  /** Slot-by-slot products. */
  function Products(a: seq<real>, b: seq<real>): (r: seq<real>)
    requires |a| == |b|
    ensures |r| == |a|
  {
    seq(|a|, k requires 0 <= k < |a| => a[k] * b[k])
  }

  function Sum(s: seq<real>): real
  {
    if s == [] then 0.0 else Sum(s[..|s| - 1]) + s[|s| - 1]
  }

  /** The value compareRatioArrays returns: the mean of the slot products. */
  function CompareRatio(a: seq<real>, b: seq<real>): real
    requires |a| == |b|
  {
    Sum(Products(a, b)) * MinEdgeRatioToCompareInverse
  }

  /** compareRatioArrays: overwrites the second array with the slot
      products and returns their mean. Each slot is read before it is
      written, so the result is the same when both arguments are the same
      array. */
  method CompareRatioArrays(ratioArray1: array<real>, ratioArray2: array<real>) returns (diff: real)
    requires ratioArray1.Length == MinEdgeRatioToCompare && ratioArray2.Length == MinEdgeRatioToCompare
    modifies ratioArray2
    ensures ratioArray2[..] == Products(old(ratioArray1[..]), old(ratioArray2[..]))
    ensures diff == CompareRatio(old(ratioArray1[..]), old(ratioArray2[..]))
  {
    ghost var pr := Products(ratioArray1[..], ratioArray2[..]);
    ghost var a, b := ratioArray1[..], ratioArray2[..];
    hide Sum;
    diff := 0.0;
    for i := 0 to MinEdgeRatioToCompare
      invariant forall m :: 0 <= m < i ==> ratioArray2[m] == pr[m]
      invariant forall m :: i <= m < MinEdgeRatioToCompare ==> ratioArray1[m] == a[m] && ratioArray2[m] == b[m]
      invariant diff == Sum(pr[..i])
    {
      var diffI := ratioArray1[i] * ratioArray2[i];
      ratioArray2[i] := diffI;
      SumPrefixStep(pr, i);
      diff := diff + diffI;
    }
    assert pr[..MinEdgeRatioToCompare] == pr;
    assert ratioArray2[..] == pr;
    diff := diff * MinEdgeRatioToCompareInverse;
  }

  lemma SumPrefixStep(s: seq<real>, i: nat)
    requires i < |s|
    ensures Sum(s[..i + 1]) == Sum(s[..i]) + s[i]
  {
    assert s[..i + 1][..i] == s[..i];
  }

  /** The sum of n copies of c. */
  lemma {:induction false} SumConstant(s: seq<real>, c: real)
    requires forall k :: 0 <= k < |s| ==> s[k] == c
    ensures Sum(s) == (|s| as real) * c
  {
    if s != [] {
      SumConstant(s[..|s| - 1], c);
    }
  }

  /** A sum of non-negative slots is non-negative. */
  lemma {:induction false} SumNonNeg(s: seq<real>)
    requires forall k :: 0 <= k < |s| ==> 0.0 <= s[k]
    ensures 0.0 <= Sum(s)
  {
    if s != [] {
      SumNonNeg(s[..|s| - 1]);
    }
  }

  /** A sum of slots that are all 1 except for a single 0 at j. */
  lemma {:induction false} SumOneGap(s: seq<real>, j: nat)
    requires j < |s|
    requires forall k :: 0 <= k < |s| ==> s[k] == (if k == j then 0.0 else 1.0)
    ensures Sum(s) == (|s| - 1) as real
  {
    var m := |s| - 1;
    if j == m {
      SumConstant(s[..m], 1.0);
    } else {
      SumOneGap(s[..m], j);
    }
  }

  /** Against its own inversion a descriptor gives product 1 in every
      non-zero slot and 0 in every zero slot, which inversion keeps. */
  lemma SelfProducts(s: seq<real>)
    ensures forall k :: 0 <= k < |s| ==> Products(Inverted(s), s)[k] == (if s[k] == 0.0 then 0.0 else 1.0)
  {
    forall k | 0 <= k < |s|
      ensures Products(Inverted(s), s)[k] == (if s[k] == 0.0 then 0.0 else 1.0)
    {
      if s[k] != 0.0 {
        ScaledReciprocal(s[k], 1.0);
        assert 1.0 * s[k] == s[k];
      }
    }
  }

  /** A descriptor with exactly one zero slot compares to 6/7 against its
      own inversion: the guarded inversion leaves the zero in place, so one
      of the seven products is lost. */
  lemma CompareOneZeroSlot(s: seq<real>, j: nat)
    requires |s| == MinEdgeRatioToCompare && j < |s|
    requires forall k :: 0 <= k < |s| ==> (s[k] == 0.0 <==> k == j)
    ensures forall k :: 0 <= k < |s| ==> Products(Inverted(s), s)[k] == (if k == j then 0.0 else 1.0)
    ensures CompareRatio(Inverted(s), s) == 6.0 / 7.0
  {
    SelfProducts(s);
    SumOneGap(Products(Inverted(s), s), j);
  }

  /** Every slot of s scaled by c. */
  function Scaled(s: seq<real>, c: real): (r: seq<real>)
    ensures |r| == |s|
  {
    seq(|s|, k requires 0 <= k < |s| => c * s[k])
  }

  /** The comparison measures scale: against the inverted descriptor of a
      shape with no zero slot, the descriptor of a copy scaled by c
      compares to exactly c, and the shape itself to 1. */
  lemma CompareScaledCopy(s: seq<real>, c: real)
    requires |s| == MinEdgeRatioToCompare
    requires forall k :: 0 <= k < |s| ==> s[k] != 0.0
    ensures CompareRatio(Inverted(s), Scaled(s, c)) == c
    ensures CompareRatio(Inverted(s), s) == 1.0
  {
    var pr := Products(Inverted(s), Scaled(s, c));
    forall k | 0 <= k < |s|
      ensures pr[k] == c
    {
      ScaledReciprocal(s[k], c);
    }
    SumConstant(pr, c);
    var one := Products(Inverted(s), s);
    forall k | 0 <= k < |s|
      ensures one[k] == 1.0
    {
      ScaledReciprocal(s[k], 1.0);
    }
    SumConstant(one, 1.0);
  }

  lemma ScaledReciprocal(x: real, c: real)
    requires x != 0.0
    ensures (1.0 / x) * (c * x) == c
  {
    assert (1.0 / x) * x == 1.0;
    assert (1.0 / x) * (c * x) == c * ((1.0 / x) * x);
  }

  /** Comparing two non-negative descriptors gives a non-negative value. */
  lemma CompareNonNeg(a: seq<real>, b: seq<real>)
    requires |a| == |b|
    requires forall k :: 0 <= k < |a| ==> 0.0 <= a[k] && 0.0 <= b[k]
    ensures forall k :: 0 <= k < |a| ==> 0.0 <= Products(a, b)[k]
    ensures 0.0 <= CompareRatio(a, b)
  {
    var pr := Products(a, b);
    forall k | 0 <= k < |a|
      ensures 0.0 <= pr[k]
    {
      ProductNonNeg(a[k], b[k]);
    }
    SumNonNeg(pr);
  }

  lemma ProductNonNeg(x: real, y: real)
    requires 0.0 <= x && 0.0 <= y
    ensures 0.0 <= x * y
  {
  }
}

=== FILE: geometry.dfy ===
/** Points, tracked points and the orientation primitive shared by every
    part of the convex-hull module. Coordinates are exact reals, so the
    float rounding of the C++ class is not modelled. */
module Geometry {

  /** A 2D point with value semantics. */
  datatype Point = Point(x: real, y: real)

  /** A tracked point; the geometry code only ever reads its coordinate. */
  datatype SmartPoint = SmartPoint(coord: Point)

  type NonNeg = r: real | 0.0 <= r

  /** The point-to-point distance of the point type. Its definition lives
      outside this model, so every operation that needs it takes it as a
      parameter; the only thing assumed of it is that it is non-negative. */
  type Distance = (Point, Point) -> NonNeg

  /** Twice the signed area of the triangle O, A, B: positive for a
      counter-clockwise (left) turn O -> A -> B, negative for a clockwise
      one, zero when the three points are collinear. */
  function Cross(o: Point, a: Point, b: Point): real
  {
    (a.x - o.x) * (b.y - o.y) - (a.y - o.y) * (b.x - o.x)
  }

  /** A point never turns with itself: any triangle with two equal corners
      is degenerate. */
  lemma CrossDegenerate(o: Point, a: Point)
    ensures Cross(o, a, a) == 0.0 && Cross(o, o, a) == 0.0 && Cross(a, o, a) == 0.0
  {
  }

  function Abs(r: real): (a: real)
    ensures 0.0 <= a && (a == r || a == -r)
  {
    if r < 0.0 then -r else r
  }

  /** The strict comparator handed to the sort of the hull builder: by x,
      then by y. */
  predicate LexLess(a: Point, b: Point)
  {
    a.x < b.x || (a.x == b.x && a.y < b.y)
  }

  /** The reflexive closure of LexLess; it is a total order on points. */
  predicate LexLeq(a: Point, b: Point)
  {
    !LexLess(b, a)
  }

  lemma LexLeqTotalOrder(a: Point, b: Point, c: Point)
    ensures LexLeq(a, a)
    ensures LexLeq(a, b) || LexLeq(b, a)
    ensures LexLeq(a, b) && LexLeq(b, a) ==> a == b
    ensures LexLeq(a, b) && LexLeq(b, c) ==> LexLeq(a, c)
  {
  }
}

=== FILE: hull_builder.dfy ===
/** The hull builder: Andrew's monotone chain as ConvexHull.cpp writes it.
    The points are sorted by (x, y); a lower chain is built left to right
    and an upper chain right to left on top of it, popping every point
    that does not make a strict left turn. The upper pass never pops below
    a floor of "lower chain size + 1", and the closing point (the smallest
    point, pushed last) is not removed, so a hull of three or more input
    points starts and ends with the same point. */
module HullBuilder {
  import opened Geometry

  /* ---------------- sorting ---------------- */

  predicate SortedLex(s: seq<SmartPoint>)
  {
    forall i, j :: 0 <= i < j < |s| ==> LexLeq(s[i].coord, s[j].coord)
  }

  /** Inserts p into a sorted sequence, before the first element that is not
      smaller than it. */
  function Insert(p: SmartPoint, s: seq<SmartPoint>): (r: seq<SmartPoint>)
    ensures |r| == |s| + 1
  {
    if s == [] || !LexLess(s[0].coord, p.coord) then [p] + s else [s[0]] + Insert(p, s[1..])
  }

  lemma {:induction false} InsertPermutes(p: SmartPoint, s: seq<SmartPoint>)
    ensures multiset(Insert(p, s)) == multiset(s) + multiset{p}
  {
    if s != [] && LexLess(s[0].coord, p.coord) {
      InsertPermutes(p, s[1..]);
      assert s == [s[0]] + s[1..];
    }
  }

  /** A lower bound of p and of every element of s bounds every element of
      the insertion. */
  lemma {:induction false} InsertLowerBound(p: SmartPoint, s: seq<SmartPoint>, b: Point)
    requires LexLeq(b, p.coord)
    requires forall k :: 0 <= k < |s| ==> LexLeq(b, s[k].coord)
    ensures forall k :: 0 <= k < |Insert(p, s)| ==> LexLeq(b, Insert(p, s)[k].coord)
  {
    var r := Insert(p, s);
    if s == [] || !LexLess(s[0].coord, p.coord) {
      assert r == [p] + s;
      forall k | 0 <= k < |r|
        ensures LexLeq(b, r[k].coord)
      {
        if k > 0 {
          assert r[k] == s[k - 1];
        }
      }
    } else {
      var rest := Insert(p, s[1..]);
      InsertLowerBound(p, s[1..], b);
      assert r == [s[0]] + rest;
      forall k | 0 <= k < |r|
        ensures LexLeq(b, r[k].coord)
      {
        if k > 0 {
          assert r[k] == rest[k - 1];
        }
      }
    }
  }

  lemma {:induction false} InsertSorted(p: SmartPoint, s: seq<SmartPoint>)
    requires SortedLex(s)
    ensures SortedLex(Insert(p, s))
  {
    var r := Insert(p, s);
    if s == [] || !LexLess(s[0].coord, p.coord) {
      assert r == [p] + s;
      forall i, j | 0 <= i < j < |r|
        ensures LexLeq(r[i].coord, r[j].coord)
      {
        assert r[j] == s[j - 1];
        if i > 0 {
          assert r[i] == s[i - 1];
        } else {
          assert LexLeq(p.coord, s[0].coord);
          assert j - 1 == 0 || LexLeq(s[0].coord, s[j - 1].coord);
        }
      }
    } else {
      var rest := Insert(p, s[1..]);
      InsertSorted(p, s[1..]);
      InsertLowerBound(p, s[1..], s[0].coord);
      assert r == [s[0]] + rest;
      forall i, j | 0 <= i < j < |r|
        ensures LexLeq(r[i].coord, r[j].coord)
      {
        assert r[j] == rest[j - 1];
        if i > 0 {
          assert r[i] == rest[i - 1];
        }
      }
    }
  }

  /** The sort that precedes the scan (insertion sort by x, then y). */
  function SortLex(s: seq<SmartPoint>): (r: seq<SmartPoint>)
    ensures |r| == |s|
  {
    if s == [] then [] else Insert(s[0], SortLex(s[1..]))
  }

  /** The sort is a permutation of its input. */
  lemma {:induction false} SortLexPermutes(s: seq<SmartPoint>)
    ensures multiset(SortLex(s)) == multiset(s)
  {
    if s != [] {
      SortLexPermutes(s[1..]);
      InsertPermutes(s[0], SortLex(s[1..]));
      assert s == [s[0]] + s[1..];
    }
  }

  /** The sorted sequence is ordered by x and then by y. */
  lemma {:induction false} SortLexSorted(s: seq<SmartPoint>)
    ensures SortedLex(SortLex(s))
  {
    if s != [] {
      SortLexSorted(s[1..]);
      InsertSorted(s[0], SortLex(s[1..]));
    }
  }

  /** The first element of the sorted sequence is the lexicographically
      smallest input point. */
  lemma SortLexFirstIsSmallest(s: seq<SmartPoint>)
    requires s != []
    ensures |SortLex(s)| == |s|
    ensures SortLex(s)[0] in s
    ensures forall q :: q in s ==> LexLeq(SortLex(s)[0].coord, q.coord)
  {
    var r := SortLex(s);
    SortLexSorted(s);
    SortLexPermutes(s);
    assert r[0] in multiset(r);
    forall q | q in s
      ensures LexLeq(r[0].coord, q.coord)
    {
      assert q in multiset(r);
      var k :| 0 <= k < |r| && r[k] == q;
      assert k == 0 || LexLeq(r[0].coord, r[k].coord);
    }
  }

  /* ---------------- the chains ---------------- */

  /** Every three consecutive points of h from index lo on make a strict
      left (counter-clockwise) turn. */
  predicate LeftTurnsFrom(h: seq<SmartPoint>, lo: nat)
  {
    forall k :: lo <= k && k + 2 < |h| ==> LeftTurnAt(h, k)
  }

  predicate LeftTurnAt(h: seq<SmartPoint>, k: nat)
    requires k + 2 < |h|
  {
    Cross(h[k].coord, h[k + 1].coord, h[k + 2].coord) > 0.0
  }

  /** The inner `while` of both passes: drop the last point while the chain
      holds at least `floor` points and its last two points followed by p
      are collinear or turn clockwise. */
  function PopWhile(h: seq<SmartPoint>, floor: nat, p: SmartPoint): (r: seq<SmartPoint>)
    requires floor >= 2
    ensures r <= h
    ensures |h| < floor ==> r == h
    ensures |h| >= floor - 1 ==> |r| >= floor - 1
    ensures |r| >= floor ==> Cross(r[|r| - 2].coord, r[|r| - 1].coord, p.coord) > 0.0
    decreases |h|
  {
    if |h| >= floor && Cross(h[|h| - 2].coord, h[|h| - 1].coord, p.coord) <= 0.0 then
      PopWhile(h[..|h| - 1], floor, p)
    else
      h
  }

  /** The lower chain after the first i sorted points have been pushed. */
  function LowerPass(s: seq<SmartPoint>, i: nat): (r: seq<SmartPoint>)
    requires i <= |s|
    ensures |r| <= i
  {
    if i == 0 then [] else PopWhile(LowerPass(s, i - 1), 2, s[i - 1]) + [s[i - 1]]
  }

  /** After each push of the lower pass the chain starts at the smallest
      point, holds at least two points once two were pushed, holds only
      input points, and every three consecutive points make a strict left
      turn. */
  lemma {:induction false} LowerPassShape(s: seq<SmartPoint>, i: nat)
    requires i <= |s|
    ensures i >= 1 ==> 1 <= |LowerPass(s, i)| && LowerPass(s, i)[0] == s[0]
    ensures i >= 2 ==> |LowerPass(s, i)| >= 2
    ensures LeftTurnsFrom(LowerPass(s, i), 0)
    ensures forall q :: q in LowerPass(s, i) ==> q in s
  {
    hide Cross, SortLex, Insert;
    if i > 0 {
      LowerPassShape(s, i - 1);
      var prev := LowerPass(s, i - 1);
      var kept := PopWhile(prev, 2, s[i - 1]);
      var r := LowerPass(s, i);
      assert r == kept + [s[i - 1]];
      PushKeepsLeftTurns(prev, kept, 2, s[i - 1]);
      assert |kept| <= |prev| && kept == prev[..|kept|];
      assert i >= 2 ==> |kept| >= 1 && r[0] == prev[0];
      assert i == 1 ==> r == [s[0]];
      forall q | q in r
        ensures q in s
      {
        if q != s[i - 1] {
          assert q in kept;
        }
      }
    }
  }

  /** A chain that turns left from lo on also turns left from any later
      index on. */
  lemma LeftTurnsWeaken(h: seq<SmartPoint>, lo: nat, hi: nat)
    requires lo <= hi && LeftTurnsFrom(h, lo)
    ensures LeftTurnsFrom(h, hi)
  {
  }

  /** Popping then pushing p keeps the left turns of h from index
      floor - 2 on: the one new triple was checked before the push. */
  lemma PushKeepsLeftTurns(h: seq<SmartPoint>, kept: seq<SmartPoint>, floor: nat, p: SmartPoint)
    requires floor >= 2 && kept == PopWhile(h, floor, p)
    requires LeftTurnsFrom(h, floor - 2)
    ensures LeftTurnsFrom(kept + [p], floor - 2)
  {
    hide Cross;
    var r := kept + [p];
    assert |kept| <= |h| && kept == h[..|kept|];
    forall k | floor - 2 <= k && k + 2 < |r|
      ensures LeftTurnAt(r, k)
    {
      if k + 2 < |kept| {
        assert r[k] == h[k] && r[k + 1] == h[k + 1] && r[k + 2] == h[k + 2];
        assert LeftTurnAt(h, k);
      } else {
        assert k + 2 == |kept|;
        assert |kept| >= floor;
        assert r[k + 2] == p;
        assert r[k] == kept[|kept| - 2];
        assert r[k + 1] == kept[|kept| - 1];
      }
    }
  }

  /** The upper pass from loop index i down to 1: each step pushes s[i-1]
      after popping down to, but never below, the floor t. */
  function UpperFrom(s: seq<SmartPoint>, h: seq<SmartPoint>, t: nat, i: nat): (r: seq<SmartPoint>)
    requires i < |s|
    requires t >= 2 && |h| >= t - 1
    decreases i
  {
    if i == 0 then h else UpperFrom(s, PopWhile(h, t, s[i - 1]) + [s[i - 1]], t, i - 1)
  }

  /** The upper pass keeps the first t - 1 points, adds at most one point
      per step, ends with the smallest point, keeps the left-turn property
      from index t - 2 on, and adds only input points. */
  lemma {:induction false} UpperFromShape(s: seq<SmartPoint>, h: seq<SmartPoint>, t: nat, i: nat)
    requires i < |s|
    requires t >= 2 && |h| >= t - 1
    ensures |UpperFrom(s, h, t, i)| <= |h| + i
    ensures |UpperFrom(s, h, t, i)| >= t - 1 && UpperFrom(s, h, t, i)[..t - 1] == h[..t - 1]
    ensures i >= 1 ==> UpperFrom(s, h, t, i)[|UpperFrom(s, h, t, i)| - 1] == s[0]
    ensures LeftTurnsFrom(h, t - 2) ==> LeftTurnsFrom(UpperFrom(s, h, t, i), t - 2)
    ensures (forall q :: q in h ==> q in s) ==> forall q :: q in UpperFrom(s, h, t, i) ==> q in s
    decreases i
  {
    hide Cross, SortLex, Insert, LowerPass;
    if i > 0 {
      var kept := PopWhile(h, t, s[i - 1]);
      var h' := kept + [s[i - 1]];
      UpperFromShape(s, h', t, i - 1);
      assert forall q :: q in kept ==> q in h;
      assert h'[..t - 1] == h[..t - 1];
      if LeftTurnsFrom(h, t - 2) {
        PushKeepsLeftTurns(h, kept, t, s[i - 1]);
      }
    }
  }

  /** Once the upper pass has taken a step it holds at least t points:
      popping stops at t - 1 points and the push comes after. */
  lemma {:induction false} UpperFromGrows(s: seq<SmartPoint>, h: seq<SmartPoint>, t: nat, i: nat)
    requires i < |s|
    requires t >= 2 && |h| >= t - 1
    ensures i >= 1 ==> |UpperFrom(s, h, t, i)| >= t
    decreases i
  {
    hide Cross;
    if i > 0 {
      UpperFromGrows(s, PopWhile(h, t, s[i - 1]) + [s[i - 1]], t, i - 1);
    }
  }

  /** The lower chain built from all of the sorted points. */
  function LowerChain(stack: seq<SmartPoint>): (r: seq<SmartPoint>)
    ensures |r| <= |stack|
  {
    LowerPass(SortLex(stack), |stack|)
  }

  /** The hull grahamScan returns for a point collection. */
  function ConvexHullOf(stack: seq<SmartPoint>): (r: seq<SmartPoint>)
    ensures |stack| < 3 ==> r == []
  {
    if |stack| < 3 then []
    else UpperFrom(SortLex(stack), LowerChain(stack), |LowerChain(stack)| + 1, |stack| - 1)
  }

  /** The hull of three or more points is closed: it has between 3 and
      2n - 1 points (the lower chain's two or more, then at least one
      upper push) and its last point repeats its first. */
  lemma ConvexHullClosed(stack: seq<SmartPoint>)
    requires |stack| >= 3
    ensures 3 <= |ConvexHullOf(stack)| <= 2 * |stack| - 1
    ensures ConvexHullOf(stack)[0] == SortLex(stack)[0]
    ensures ConvexHullOf(stack)[|ConvexHullOf(stack)| - 1] == SortLex(stack)[0]
  {
    hide Cross, LeftTurnsFrom, UpperFrom, LowerPass, SortLex, PopWhile;
    var s := SortLex(stack);
    var lower := LowerChain(stack);
    var t, i := |lower| + 1, |s| - 1;
    LowerPassShape(s, |s|);
    assert 2 <= |lower| <= |s| && lower[0] == s[0];
    UpperFromShape(s, lower, t, i);
    UpperFromGrows(s, lower, t, i);
    var r := UpperFrom(s, lower, t, i);
    assert r == ConvexHullOf(stack);
    assert |lower| + 1 <= |r| <= |lower| + i;
    assert r[..t - 1] == lower[..t - 1] == lower;
    assert r[0] == r[..t - 1][0];
  }

  /** The ends of the hull of three or more points: the first and the last
      point are both the smallest input point, and every point is an input
      point. */
  lemma ConvexHullEnds(stack: seq<SmartPoint>)
    requires |stack| >= 3
    ensures |ConvexHullOf(stack)| >= 3
    ensures ConvexHullOf(stack)[0] == ConvexHullOf(stack)[|ConvexHullOf(stack)| - 1]
    ensures ConvexHullOf(stack)[0] in stack
    ensures forall q :: q in stack ==> LexLeq(ConvexHullOf(stack)[0].coord, q.coord)
    ensures forall q :: q in ConvexHullOf(stack) ==> q in stack
  {
    hide Cross, LeftTurnsFrom, UpperFrom, LowerPass, PopWhile;
    var s := SortLex(stack);
    SortLexFirstIsSmallest(stack);
    SortLexPermutes(stack);
    ConvexHullClosed(stack);
    var lower := LowerChain(stack);
    LowerPassShape(s, |s|);
    UpperFromShape(s, lower, |lower| + 1, |s| - 1);
    var r := ConvexHullOf(stack);
    assert r == UpperFrom(s, lower, |lower| + 1, |s| - 1);
    forall q | q in r
      ensures q in stack
    {
      assert q in multiset(s);
    }
  }

  /** The turns of the hull of three or more points: the whole lower chain
      survives as a prefix and turns strictly left throughout, and the
      upper part turns strictly left from the last point of the lower chain
      on. The one triple that is never checked is the one centred on that
      last lower point. */
  lemma ConvexHullTurns(stack: seq<SmartPoint>)
    requires |stack| >= 3
    ensures 2 <= |LowerChain(stack)| <= |ConvexHullOf(stack)|
    ensures ConvexHullOf(stack)[..|LowerChain(stack)|] == LowerChain(stack)
    ensures LeftTurnsFrom(LowerChain(stack), 0)
    ensures LeftTurnsFrom(ConvexHullOf(stack), |LowerChain(stack)| - 1)
  {
    hide Cross, UpperFrom, LowerPass, SortLex, PopWhile;
    var s := SortLex(stack);
    var lower := LowerChain(stack);
    var t, i := |lower| + 1, |s| - 1;
    LowerPassShape(s, |s|);
    LeftTurnsWeaken(lower, 0, t - 2);
    hide LeftTurnsFrom;
    assert 2 <= |lower|;
    UpperFromShape(s, lower, t, i);
    var r := UpperFrom(s, lower, t, i);
    assert r == ConvexHullOf(stack);
    assert |r| >= t - 1 && r[..t - 1] == lower[..t - 1] == lower;
    assert LeftTurnsFrom(r, t - 2);
  }

  /** grahamScan (the point-collection overload): sort, then the lower and
      the upper pass over the same output sequence. */
  method GrahamScan(stack: seq<SmartPoint>) returns (hull: seq<SmartPoint>)
    ensures hull == ConvexHullOf(stack)
    ensures |stack| < 3 ==> hull == []
    ensures |stack| >= 3 ==> 3 <= |hull| <= 2 * |stack| - 1 && hull[0] == hull[|hull| - 1]
  {
    hull := [];
    if |stack| < 3 {
      return;
    }
    hide Cross, PopWhile, LowerPass, UpperFrom, SortLex, Insert, LeftTurnsFrom;
    var s := SortLex(stack);
    hull := BuildLower(s);
    LowerPassShape(s, |s|);
    assert hull == LowerChain(stack);
    hull := BuildUpper(s, hull);
    ConvexHullClosed(stack);
  }

  /** The lower pass: left to right over the sorted points. */
  method BuildLower(s: seq<SmartPoint>) returns (hull: seq<SmartPoint>)
    ensures hull == LowerPass(s, |s|)
  {
    hide Cross, PopWhile, LowerPass;
    hull := [];
    var i := 0;
    while i < |s|
      invariant 0 <= i <= |s|
      invariant hull == LowerPass(s, i)
    {
      ghost var before := hull;
      while |hull| >= 2 && Cross(hull[|hull| - 2].coord, hull[|hull| - 1].coord, s[i].coord) <= 0.0
        invariant PopWhile(hull, 2, s[i]) == PopWhile(before, 2, s[i])
        decreases |hull|
      {
        PopStep(hull, 2, s[i]);
        hull := hull[..|hull| - 1];
      }
      PopDone(hull, 2, s[i]);
      LowerStep(s, i);
      hull := hull + [s[i]];
      i := i + 1;
    }
  }

  /** The upper pass: right to left over the sorted points, pushing onto the
      lower chain and never popping below the floor t = |lower| + 1. */
  method BuildUpper(s: seq<SmartPoint>, lower: seq<SmartPoint>) returns (hull: seq<SmartPoint>)
    requires 1 <= |s| && 1 <= |lower|
    ensures hull == UpperFrom(s, lower, |lower| + 1, |s| - 1)
  {
    hide Cross, PopWhile, UpperFrom;
    hull := lower;
    var t := |hull| + 1;
    var i := |s| - 1;
    while i > 0
      invariant 0 <= i <= |s| - 1
      invariant |hull| >= t - 1
      invariant UpperFrom(s, lower, t, |s| - 1) == UpperFrom(s, hull, t, i)
    {
      ghost var before := hull;
      while |hull| >= t && Cross(hull[|hull| - 2].coord, hull[|hull| - 1].coord, s[i - 1].coord) <= 0.0
        invariant |hull| >= t - 1
        invariant PopWhile(hull, t, s[i - 1]) == PopWhile(before, t, s[i - 1])
        decreases |hull|
      {
        PopStep(hull, t, s[i - 1]);
        hull := hull[..|hull| - 1];
      }
      PopDone(hull, t, s[i - 1]);
      UpperStep(s, before, t, i);
      hull := hull + [s[i - 1]];
      i := i - 1;
    }
    UpperDone(s, hull, t);
  }

  /** One pop of the inner loop. */
  lemma PopStep(h: seq<SmartPoint>, floor: nat, p: SmartPoint)
    requires floor >= 2 && |h| >= floor
    requires Cross(h[|h| - 2].coord, h[|h| - 1].coord, p.coord) <= 0.0
    ensures PopWhile(h, floor, p) == PopWhile(h[..|h| - 1], floor, p)
  {
  }

  /** The inner loop stops: nothing more is popped. */
  lemma PopDone(h: seq<SmartPoint>, floor: nat, p: SmartPoint)
    requires floor >= 2
    requires !(|h| >= floor && Cross(h[|h| - 2].coord, h[|h| - 1].coord, p.coord) <= 0.0)
    ensures PopWhile(h, floor, p) == h
  {
  }

  /** One push of the lower pass. */
  lemma LowerStep(s: seq<SmartPoint>, i: nat)
    requires i < |s|
    ensures LowerPass(s, i + 1) == PopWhile(LowerPass(s, i), 2, s[i]) + [s[i]]
  {
  }

  /** grahamScan over a correspondence collection: its elements are turned
      into tracked points and the point-collection overload does the rest.
      The collection must not be empty. */
  method GrahamScanMatches(corresponds: seq<Point>) returns (hull: seq<SmartPoint>)
    requires |corresponds| > 0
    ensures |corresponds| < 3 ==> hull == []
    ensures hull == ConvexHullOf(seq(|corresponds|, k requires 0 <= k < |corresponds| => SmartPoint(corresponds[k])))
  {
    var points: seq<SmartPoint> := [];
    for k := 0 to |corresponds|
      invariant |points| == k
      invariant forall m :: 0 <= m < k ==> points[m] == SmartPoint(corresponds[m])
    {
      points := points + [SmartPoint(corresponds[k])];
    }
    assert points == seq(|corresponds|, k requires 0 <= k < |corresponds| => SmartPoint(corresponds[k]));
    hull := GrahamScan(points);
  }

  /* ---------------- worked examples ---------------- */

  function Sp(x: real, y: real): SmartPoint { SmartPoint(Point(x, y)) }

  /** The square of the examples, sorted by x and then y. */
  const SquareByX := [Sp(0.0, 0.0), Sp(0.0, 4.0), Sp(4.0, 0.0), Sp(4.0, 4.0)]

  const CollinearInput := [Sp(0.0, 0.0), Sp(1.0, 0.0), Sp(2.0, 0.0)]

  /** The square (0,0),(4,0),(4,4),(0,4) gives its four corners in
      counter-clockwise order followed by the repeated first corner. */
  lemma SquareHull()
    ensures ConvexHullOf([Sp(0.0, 0.0), Sp(4.0, 0.0), Sp(4.0, 4.0), Sp(0.0, 4.0)])
         == [Sp(0.0, 0.0), Sp(4.0, 0.0), Sp(4.0, 4.0), Sp(0.0, 4.0), Sp(0.0, 0.0)]
  {
    var s := [Sp(0.0, 0.0), Sp(0.0, 4.0), Sp(4.0, 0.0), Sp(4.0, 4.0)];
    SquareSorted();
    SquareLowerChain();
    SquareUpperStep3();
    SquareUpperStep2();
    SquareUpperStep1();
  }

  lemma SquareSorted()
    ensures SortLex([Sp(0.0, 0.0), Sp(4.0, 0.0), Sp(4.0, 4.0), Sp(0.0, 4.0)])
         == [Sp(0.0, 0.0), Sp(0.0, 4.0), Sp(4.0, 0.0), Sp(4.0, 4.0)]
  {
    SquareSortedTail();
    SortLexCons(Sp(0.0, 0.0), [Sp(4.0, 0.0), Sp(4.0, 4.0), Sp(0.0, 4.0)]);
  }

  lemma SquareSortedTail()
    ensures SortLex([Sp(4.0, 0.0), Sp(4.0, 4.0), Sp(0.0, 4.0)])
         == [Sp(0.0, 4.0), Sp(4.0, 0.0), Sp(4.0, 4.0)]
  {
    SortLexCons(Sp(0.0, 4.0), []);
    SortLexCons(Sp(4.0, 4.0), [Sp(0.0, 4.0)]);
    assert Insert(Sp(4.0, 4.0), [Sp(0.0, 4.0)]) == [Sp(0.0, 4.0)] + Insert(Sp(4.0, 4.0), []);
    SortLexCons(Sp(4.0, 0.0), [Sp(4.0, 4.0), Sp(0.0, 4.0)]);
    assert [Sp(0.0, 4.0), Sp(4.0, 4.0)][1..] == [Sp(4.0, 4.0)];
  }

  lemma SortLexCons(p: SmartPoint, s: seq<SmartPoint>)
    ensures SortLex([p] + s) == Insert(p, SortLex(s))
  {
    assert ([p] + s)[1..] == s;
  }

  lemma SquareLowerChain()
    ensures LowerPass([Sp(0.0, 0.0), Sp(0.0, 4.0), Sp(4.0, 0.0), Sp(4.0, 4.0)], 4)
         == [Sp(0.0, 0.0), Sp(4.0, 0.0), Sp(4.0, 4.0)]
  {
    var s := [Sp(0.0, 0.0), Sp(0.0, 4.0), Sp(4.0, 0.0), Sp(4.0, 4.0)];
    assert LowerPass(s, 2) == [s[0], s[1]];
    assert PopWhile([s[0], s[1]], 2, s[2]) == [s[0]] by {
      assert [s[0], s[1]][..1] == [s[0]];
    }
    assert LowerPass(s, 3) == [s[0], s[2]];
  }

  lemma SquareUpperStep3()
    ensures UpperFrom(SquareByX, [Sp(0.0, 0.0), Sp(4.0, 0.0), Sp(4.0, 4.0)], 4, 3)
         == UpperFrom(SquareByX, [Sp(0.0, 0.0), Sp(4.0, 0.0), Sp(4.0, 4.0), Sp(4.0, 0.0)], 4, 2)
  {
  }

  lemma SquareUpperStep2()
    ensures UpperFrom(SquareByX, [Sp(0.0, 0.0), Sp(4.0, 0.0), Sp(4.0, 4.0), Sp(4.0, 0.0)], 4, 2)
         == UpperFrom(SquareByX, [Sp(0.0, 0.0), Sp(4.0, 0.0), Sp(4.0, 4.0), Sp(0.0, 4.0)], 4, 1)
  {
    var h := [Sp(0.0, 0.0), Sp(4.0, 0.0), Sp(4.0, 4.0), Sp(4.0, 0.0)];
    assert h[..3] == [Sp(0.0, 0.0), Sp(4.0, 0.0), Sp(4.0, 4.0)];
    assert PopWhile(h, 4, Sp(0.0, 4.0)) == h[..3];
  }

  lemma SquareUpperStep1()
    ensures UpperFrom(SquareByX, [Sp(0.0, 0.0), Sp(4.0, 0.0), Sp(4.0, 4.0), Sp(0.0, 4.0)], 4, 1)
         == [Sp(0.0, 0.0), Sp(4.0, 0.0), Sp(4.0, 4.0), Sp(0.0, 4.0), Sp(0.0, 0.0)]
  {
  }

  /** Collinear input is not rejected: three points on a line give the two
      end points and the repeated first point. */
  lemma CollinearHull()
    ensures ConvexHullOf([Sp(0.0, 0.0), Sp(1.0, 0.0), Sp(2.0, 0.0)])
         == [Sp(0.0, 0.0), Sp(2.0, 0.0), Sp(0.0, 0.0)]
  {
    var s := [Sp(0.0, 0.0), Sp(1.0, 0.0), Sp(2.0, 0.0)];
    CollinearSorted();
    CollinearLowerChain();
    CollinearUpper();
  }

  lemma CollinearSorted()
    ensures SortLex([Sp(0.0, 0.0), Sp(1.0, 0.0), Sp(2.0, 0.0)]) == [Sp(0.0, 0.0), Sp(1.0, 0.0), Sp(2.0, 0.0)]
  {
    SortLexCons(Sp(2.0, 0.0), []);
    SortLexCons(Sp(1.0, 0.0), [Sp(2.0, 0.0)]);
    SortLexCons(Sp(0.0, 0.0), [Sp(1.0, 0.0), Sp(2.0, 0.0)]);
  }

  lemma CollinearLowerChain()
    ensures LowerPass([Sp(0.0, 0.0), Sp(1.0, 0.0), Sp(2.0, 0.0)], 3) == [Sp(0.0, 0.0), Sp(2.0, 0.0)]
  {
    var s := [Sp(0.0, 0.0), Sp(1.0, 0.0), Sp(2.0, 0.0)];
    hide LowerPass, PopWhile;
    LowerStep(s, 0);
    LowerStep(s, 1);
    LowerStep(s, 2);
    assert LowerPass(s, 0) == [];
    PopDone([], 2, s[0]);
    assert LowerPass(s, 1) == [s[0]];
    PopDone([s[0]], 2, s[1]);
    assert LowerPass(s, 2) == [s[0]] + [s[1]];
    PopStep([s[0], s[1]], 2, s[2]);
    assert [s[0], s[1]][..1] == [s[0]];
    PopDone([s[0]], 2, s[2]);
  }

  lemma CollinearUpper()
    ensures UpperFrom(CollinearInput, [Sp(0.0, 0.0), Sp(2.0, 0.0)], 3, 2) == [Sp(0.0, 0.0), Sp(2.0, 0.0), Sp(0.0, 0.0)]
  {
    var s := CollinearInput;
    var h0 := [s[0], s[2]];
    assert PopWhile(h0, 3, s[1]) == h0;
    UpperStep(s, h0, 3, 2);
    var h1 := h0 + [s[1]];
    assert h1[..2] == h0;
    assert PopWhile(h1, 3, s[0]) == h0;
    UpperStep(s, h1, 3, 1);
  }

  /** The upper pass has nothing left to do at index 0. */
  lemma UpperDone(s: seq<SmartPoint>, h: seq<SmartPoint>, t: nat)
    requires 0 < |s| && t >= 2 && |h| >= t - 1
    ensures UpperFrom(s, h, t, 0) == h
  {
  }

  /** One step of the upper pass. */
  lemma UpperStep(s: seq<SmartPoint>, h: seq<SmartPoint>, t: nat, i: nat)
    requires 1 <= i < |s| && t >= 2 && |h| >= t - 1
    ensures UpperFrom(s, h, t, i) == UpperFrom(s, PopWhile(h, t, s[i - 1]) + [s[i - 1]], t, i - 1)
  {
  }
}

=== FILE: metrics.dfy ===
/** Measures of a polygon given as its sequence of vertices: the shoelace
    area, the perimeter and the vertex mean with the (-1, -1) seed
    calculatePolygonBaricenter starts its sum from. */
module Metrics {
  import opened Geometry

  /* ---------------- area ---------------- */

  /** The cyclic successor of vertex k among n. */
  function Next(n: nat, k: nat): (j: nat)
    requires k < n
    ensures j < n
  {
    if k + 1 == n then 0 else k + 1
  }

  /** The successor index the loops compute with `%`. */
  lemma NextIsMod(n: nat, k: nat)
    requires k < n
    ensures (k + 1) % n == Next(n, k)
  {
    if k + 1 < n {
      assert (k + 1) / n == 0;
    } else {
      assert (k + 1) / n == 1;
    }
  }

  /** The cross product of two position vectors. */
  function Wedge(a: Point, b: Point): real
  {
    a.x * b.y - a.y * b.x
  }

  /** The shoelace term of vertex k and its cyclic successor. */
  function ShoelaceTerm(p: seq<SmartPoint>, k: nat): real
    requires k < |p|
  {
    Wedge(p[k].coord, p[Next(|p|, k)].coord)
  }

  /** The sum of the first i shoelace terms. */
  function ShoelaceSum(p: seq<SmartPoint>, i: nat): real
    requires i <= |p|
  {
    if i == 0 then 0.0 else ShoelaceSum(p, i - 1) + ShoelaceTerm(p, i - 1)
  }

  /** Twice the signed area of the polygon: positive when its vertices run
      counter-clockwise. */
  function Shoelace(p: seq<SmartPoint>): real
  {
    ShoelaceSum(p, |p|)
  }

  /** The area polygonArea returns. */
  function Area(p: seq<SmartPoint>): (a: real)
    ensures 0.0 <= a
    ensures |p| == 0 ==> a == 0.0
  {
    if |p| == 0 then 0.0 else Abs(Shoelace(p) / 2.0)
  }

  /** polygonArea: accumulates the shoelace sum in two steps per vertex,
      halves it and takes its absolute value. */
  method PolygonArea(polygon: seq<SmartPoint>) returns (area: real)
    ensures area == Area(polygon)
    ensures 0.0 <= area
  {
    if |polygon| == 0 {
      return 0.0;
    }
    area := 0.0;
    var n := |polygon|;
    for i := 0 to n
      invariant area == ShoelaceSum(polygon, i)
    {
      var j := (i + 1) % n;
      NextIsMod(n, i);
      area := area + polygon[i].coord.x * polygon[j].coord.y;
      area := area - polygon[i].coord.y * polygon[j].coord.x;
    }
    area := area / 2.0;
    if area < 0.0 {
      area := -area;
    }
  }

  /** Appending a copy of the first vertex (as the hull builder does) adds a
      zero-length edge and leaves the shoelace sum unchanged. */
  lemma ShoelaceClosingDuplicate(h: seq<SmartPoint>)
    requires |h| >= 1
    ensures Shoelace(h + [h[0]]) == Shoelace(h)
  {
    var q := h + [h[0]];
    var m := |h|;
    ShoelacePrefix(h, m - 1);
    assert Wedge(h[0].coord, h[0].coord) == 0.0;
    hide Wedge;
    assert ShoelaceTerm(q, m - 1) == ShoelaceTerm(h, m - 1);
    assert ShoelaceTerm(q, m) == 0.0;
    assert ShoelaceSum(q, m + 1) == ShoelaceSum(q, m - 1) + ShoelaceTerm(q, m - 1) + ShoelaceTerm(q, m);
  }

  /** Below the last vertex of h, the terms of h and of h closed by a copy
      of its first vertex agree. */
  lemma {:induction false} ShoelacePrefix(h: seq<SmartPoint>, i: nat)
    requires 1 <= |h| && i <= |h| - 1
    ensures ShoelaceSum(h + [h[0]], i) == ShoelaceSum(h, i)
  {
    hide Wedge;
    if i > 0 {
      ShoelacePrefix(h, i - 1);
      var q := h + [h[0]];
      assert q[i - 1] == h[i - 1] && q[i] == h[i];
      assert ShoelaceTerm(q, i - 1) == ShoelaceTerm(h, i - 1);
    }
  }

  /** The closing duplicate does not change the area. */
  lemma AreaClosingDuplicate(h: seq<SmartPoint>)
    requires |h| >= 1
    ensures Area(h + [h[0]]) == Area(h)
  {
    ShoelaceClosingDuplicate(h);
  }

  /** The shoelace sum of a triangle is the orientation value the hull
      builder tests, so the area of a triangle is half its absolute value. */
  lemma TriangleArea(a: SmartPoint, b: SmartPoint, c: SmartPoint)
    ensures Shoelace([a, b, c]) == Cross(a.coord, b.coord, c.coord)
    ensures Area([a, b, c]) == Abs(Cross(a.coord, b.coord, c.coord)) / 2.0
  {
    var p := [a, b, c];
    WedgeSumIsCross(a.coord, b.coord, c.coord);
    hide Wedge, Cross;
    assert ShoelaceSum(p, 1) == Wedge(a.coord, b.coord);
    assert ShoelaceSum(p, 2) == Wedge(a.coord, b.coord) + Wedge(b.coord, c.coord);
    assert ShoelaceSum(p, 3) == Wedge(a.coord, b.coord) + Wedge(b.coord, c.coord) + Wedge(c.coord, a.coord);
  }

  lemma WedgeSumIsCross(a: Point, b: Point, c: Point)
    ensures Wedge(a, b) + Wedge(b, c) + Wedge(c, a) == Cross(a, b, c)
  {
    assert (b.x - a.x) * (c.y - a.y) == b.x * c.y - b.x * a.y - a.x * c.y + a.x * a.y;
    assert (b.y - a.y) * (c.x - a.x) == b.y * c.x - b.y * a.x - a.y * c.x + a.y * a.x;
  }

  /** The 4 by 4 square, open or closed by its first corner, has area 16. */
  lemma SquareArea()
    ensures Area(SquareCorners) == 16.0
    ensures Area(SquareCorners + [SquareCorners[0]]) == 16.0
  {
    SquareShoelace();
    AreaClosingDuplicate(SquareCorners);
    hide Shoelace;
    assert Area(SquareCorners) == Abs(32.0 / 2.0);
  }

  /** Twice the area of the square, its corners taken counter-clockwise. */
  lemma SquareShoelace()
    ensures Shoelace(SquareCorners) == 32.0
  {
    var p := SquareCorners;
    SquareWedgesBelow();
    SquareWedgesAbove();
    hide Wedge;
    assert ShoelaceSum(p, 1) == 0.0;
    assert ShoelaceSum(p, 2) == 16.0;
    assert ShoelaceSum(p, 3) == 32.0;
  }

  lemma SquareWedgesBelow()
    ensures Wedge(Point(0.0, 0.0), Point(4.0, 0.0)) == 0.0
    ensures Wedge(Point(4.0, 0.0), Point(4.0, 4.0)) == 16.0
  {
  }

  lemma SquareWedgesAbove()
    ensures Wedge(Point(4.0, 4.0), Point(0.0, 4.0)) == 16.0
    ensures Wedge(Point(0.0, 4.0), Point(0.0, 0.0)) == 0.0
  {
  }

  const SquareCorners := [SmartPoint(Point(0.0, 0.0)), SmartPoint(Point(4.0, 0.0)),
                          SmartPoint(Point(4.0, 4.0)), SmartPoint(Point(0.0, 4.0))]

  /* ---------------- perimeter ---------------- */

  /** The length of the open path through the first i + 1 vertices. */
  function PathLength(p: seq<SmartPoint>, dist: Distance, i: nat): real
    requires i < |p|
  {
    if i == 0 then 0.0 else PathLength(p, dist, i - 1) + dist(p[i - 1].coord, p[i].coord)
  }

  /** The perimeter perimeterArea returns: the path through all vertices
      plus the edge from the last vertex back to the first. */
  function Perimeter(p: seq<SmartPoint>, dist: Distance): real
  {
    if |p| == 0 then 0.0 else PathLength(p, dist, |p| - 1) + dist(p[|p| - 1].coord, p[0].coord)
  }

  /** A path is never shorter than any of its prefixes, and never negative. */
  lemma {:induction false} PathLengthGrows(p: seq<SmartPoint>, dist: Distance, i: nat, j: nat)
    requires i <= j < |p|
    ensures 0.0 <= PathLength(p, dist, i) <= PathLength(p, dist, j)
  {
    if i < j {
      PathLengthGrows(p, dist, i, j - 1);
    } else if i > 0 {
      PathLengthGrows(p, dist, i - 1, i - 1);
    }
  }

  /** perimeterArea: sums the edges between consecutive vertices, then adds
      the closing edge. */
  method PerimeterArea(polygon: seq<SmartPoint>, dist: Distance) returns (perimeter: real)
    ensures perimeter == Perimeter(polygon, dist)
    ensures 0.0 <= perimeter
    ensures |polygon| == 0 ==> perimeter == 0.0
  {
    if |polygon| == 0 {
      return 0.0;
    }
    perimeter := 0.0;
    for i := 0 to |polygon| - 1
      invariant perimeter == PathLength(polygon, dist, i)
    {
      perimeter := perimeter + dist(polygon[i].coord, polygon[i + 1].coord);
    }
    perimeter := perimeter + dist(polygon[|polygon| - 1].coord, polygon[0].coord);
    PathLengthGrows(polygon, dist, |polygon| - 1, |polygon| - 1);
  }

  /** With sides of length 4, the square's perimeter is 16: three path
      edges and the closing edge. */
  lemma SquarePerimeter(dist: Distance)
    requires dist(Point(0.0, 0.0), Point(4.0, 0.0)) == 4.0 && dist(Point(4.0, 0.0), Point(4.0, 4.0)) == 4.0
    requires dist(Point(4.0, 4.0), Point(0.0, 4.0)) == 4.0 && dist(Point(0.0, 4.0), Point(0.0, 0.0)) == 4.0
    ensures Perimeter(SquareCorners, dist) == 16.0
  {
    assert PathLength(SquareCorners, dist, 1) == 4.0;
    assert PathLength(SquareCorners, dist, 2) == 8.0;
  }

  /** Below the last vertex of h, the path of h and of h closed by a copy of
      its first vertex agree. */
  lemma {:induction false} PathPrefix(h: seq<SmartPoint>, dist: Distance, i: nat)
    requires i < |h|
    ensures PathLength(h + [h[0]], dist, i) == PathLength(h, dist, i)
  {
    if i > 0 {
      PathPrefix(h, dist, i - 1);
      assert (h + [h[0]])[i - 1] == h[i - 1] && (h + [h[0]])[i] == h[i];
    }
  }

  /** On a closed hull the perimeter counts the zero-length edge from the
      duplicate to the first vertex once more; for any distance that
      vanishes on equal points the perimeter is unchanged. */
  lemma PerimeterClosingDuplicate(h: seq<SmartPoint>, dist: Distance)
    requires |h| >= 1
    ensures Perimeter(h + [h[0]], dist) == Perimeter(h, dist) + dist(h[0].coord, h[0].coord)
  {
    var q := h + [h[0]];
    PathPrefix(h, dist, |h| - 1);
    assert q[|h|] == h[0] && q[|h| - 1] == h[|h| - 1];
    assert PathLength(q, dist, |h|) == PathLength(h, dist, |h| - 1) + dist(h[|h| - 1].coord, h[0].coord);
  }

  /* ---------------- vertex mean ---------------- */

  /** The sum of the x (resp. y) coordinates of the first i vertices. */
  function SumX(p: seq<SmartPoint>, i: nat): real
    requires i <= |p|
  {
    if i == 0 then 0.0 else SumX(p, i - 1) + p[i - 1].coord.x
  }

  function SumY(p: seq<SmartPoint>, i: nat): real
    requires i <= |p|
  {
    if i == 0 then 0.0 else SumY(p, i - 1) + p[i - 1].coord.y
  }

  /** The value calculatePolygonBaricenter returns: the sum starts from
      (-1, -1) rather than from the origin, so for a non-empty polygon the
      result is the vertex mean shifted by -1/n on both axes. */
  function Baricenter(p: seq<SmartPoint>): Point
  {
    if |p| == 0 then Point(-1.0, -1.0)
    else
      var n := |p| as real;
      Point((-1.0 + SumX(p, |p|)) / n, (-1.0 + SumY(p, |p|)) / n)
  }

  /** calculatePolygonBaricenter: adds every vertex to a (-1, -1) seed and
      divides by the number of vertices. */
  method CalculatePolygonBaricenter(polygon: seq<SmartPoint>) returns (meanCentroid: Point)
    ensures meanCentroid == Baricenter(polygon)
    ensures |polygon| > 0 ==>
              meanCentroid.x == SumX(polygon, |polygon|) / (|polygon| as real) - 1.0 / (|polygon| as real) &&
              meanCentroid.y == SumY(polygon, |polygon|) / (|polygon| as real) - 1.0 / (|polygon| as real)
  {
    meanCentroid := Point(-1.0, -1.0);
    if |polygon| == 0 {
      return;
    }
    for i := 0 to |polygon|
      invariant meanCentroid == Point(-1.0 + SumX(polygon, i), -1.0 + SumY(polygon, i))
    {
      meanCentroid := Point(meanCentroid.x + polygon[i].coord.x, meanCentroid.y + polygon[i].coord.y);
    }
    var n := |polygon| as real;
    meanCentroid := Point(meanCentroid.x / n, meanCentroid.y / n);
    DivSplit(-1.0, SumX(polygon, |polygon|), n);
    DivSplit(-1.0, SumY(polygon, |polygon|), n);
  }

  lemma DivSplit(a: real, b: real, n: real)
    requires n != 0.0
    ensures (a + b) / n == b / n + a / n
  {
  }

  /** Moving every vertex by d moves the result by d. */
  function Translate(p: seq<SmartPoint>, d: Point): (r: seq<SmartPoint>)
    ensures |r| == |p|
  {
    seq(|p|, k requires 0 <= k < |p| => SmartPoint(Point(p[k].coord.x + d.x, p[k].coord.y + d.y)))
  }

  lemma {:induction false} SumTranslate(p: seq<SmartPoint>, d: Point, i: nat)
    requires i <= |p|
    ensures SumX(Translate(p, d), i) == SumX(p, i) + (i as real) * d.x
    ensures SumY(Translate(p, d), i) == SumY(p, i) + (i as real) * d.y
  {
    if i > 0 {
      SumTranslate(p, d, i - 1);
    }
  }

  lemma BaricenterTranslate(p: seq<SmartPoint>, d: Point)
    requires |p| > 0
    ensures Baricenter(Translate(p, d)) == Point(Baricenter(p).x + d.x, Baricenter(p).y + d.y)
  {
    var n := |p| as real;
    SumTranslate(p, d, |p|);
    ShiftedMean(-1.0 + SumX(p, |p|), d.x, n);
    ShiftedMean(-1.0 + SumY(p, |p|), d.y, n);
  }

  lemma ShiftedMean(s: real, d: real, n: real)
    requires n > 0.0
    ensures (s + n * d) / n == s / n + d
  {
    assert (s + n * d) / n == s / n + (n * d) / n;
  }

  /** For the square the mean corner is (2, 2), but the seed moves the
      result to (7/4, 7/4). */
  lemma SquareBaricenter()
    ensures Baricenter(SquareCorners) == Point(1.75, 1.75)
  {
    assert SumX(SquareCorners, 4) == 8.0;
    assert SumY(SquareCorners, 4) == 8.0;
  }

  /** The sums over the first j vertices depend only on those vertices. */
  lemma {:induction false} SumPrefixAgree(p: seq<SmartPoint>, q: seq<SmartPoint>, j: nat)
    requires j <= |p| && j <= |q| && p[..j] == q[..j]
    ensures SumX(p, j) == SumX(q, j) && SumY(p, j) == SumY(q, j)
  {
    if j > 0 {
      assert p[..j - 1] == p[..j][..j - 1] && q[..j - 1] == q[..j][..j - 1];
      assert p[j - 1] == p[..j][j - 1] && q[j - 1] == q[..j][j - 1];
      SumPrefixAgree(p, q, j - 1);
    }
  }

  /** Coordinate sums add up over a concatenation of vertex lists. */
  lemma {:induction false} SumAppend(a: seq<SmartPoint>, b: seq<SmartPoint>, i: nat)
    requires i <= |b|
    ensures SumX(a + b, |a| + i) == SumX(a, |a|) + SumX(b, i)
    ensures SumY(a + b, |a| + i) == SumY(a, |a|) + SumY(b, i)
  {
    if i == 0 {
      assert (a + b)[..|a|] == a[..|a|];
      SumPrefixAgree(a + b, a, |a|);
    } else {
      SumAppend(a, b, i - 1);
      assert (a + b)[|a| + i - 1] == b[i - 1];
    }
  }

  /** Listing the same vertices from another starting point leaves the
      vertex mean where it was. */
  lemma BaricenterSwap(a: seq<SmartPoint>, b: seq<SmartPoint>)
    ensures Baricenter(a + b) == Baricenter(b + a)
  {
    SumAppend(a, b, |b|);
    SumAppend(b, a, |a|);
  }
}
